=== FILE: README.md ===
# Tick-driven state machines of a 2D platformer, in Dafny

This project models four small, tick-driven state machines from a Java 2D
side-scroller:

- The **player's movement state machine** (`src/Scene/Player.java`):
  - gravity, then the STANDING / WALKING / CROUCHING / JUMPING handlers, re-run until the state stops changing;
  - jump-force decay floored at zero;
  - momentum capped at terminal velocity;
  - the edge-triggered jump key;
  - the vertical collision callback;
  - the level-completed and death sequences that replace movement once the level stops running.
- The **human enemy AI** (`src/Enemies/BaseHumanEnemy.java`):
  - a distance-gated chase delay;
  - movement on the ground;
  - an independent shoot-wait / aim / shoot pipeline that spawns one bullet at a time;
  - the collision callbacks.
- The **weapon controller and screen flow** of the level screen (`src/Screens/WorldThreeScreen.java`):
  - pickup registration with one overlay;
  - guarded ammo decrements;
  - the pistol's one-shot latch;
  - rifle and shotgun cooldowns;
  - the 60-frame reload;
  - edge-triggered pausing;
  - the level-cleared countdown;
  - the lose screen.
- The **main menu** (`src/Screens/MenuScreen.java`): a two-item hover with wrap-around, a 14-tick key repeat delay, and an edge-locked SPACE selection.

Every operation is a pure function from a state record and one tick's input
to the next state. The inputs are:

- the keys held down that tick, a `set<Key>`, so a key is up exactly when it is not in the set;
- the outcomes the (unmodelled) collision resolver hands to the `onEndCollisionCheck` callbacks, as `Collision(hasCollided, direction)`;
- whether the camera still draws the player and whether its animation shows its last frame, for the player's end-of-level sequences;
- the player's horizontal offset, for the enemy;
- whether the map reports its last wave complete and which pickups the player touches during the map update, for the screen.

Multi-tick properties are stated over `Run` functions that fold a step function
over a sequence of inputs. Float quantities (speeds, gravity, momentum) are
`real`, and rounding is not modelled.

Files:

| file | module | contents |
|---|---|---|
| `common.dfy` | `Common` | directions, air/ground, keys, collision outcomes, `Option` |
| `player.dfy` | `PlayerFsm` | player physics and state machine |
| `human_enemy.dfy` | `HumanEnemy` | enemy chase, movement and shooting |
| `world_three.dfy` | `WorldThree` | weapons, reload, pausing, screen states |
| `menu.dfy` | `Menu` | main menu |

The player's stabilisation loop remembers the state, runs that state's
handler, and repeats until a pass leaves the state unchanged. It is modelled
by the recursive `PlayerFsm.Stabilize`, and `PlayerFsm.StabilizeMakesHandlerCalls`
ties it to the pass count `PlayerFsm.HandlerCalls`. It terminates because of a
measure:

- An available jump (jump key down and unlocked) is worth 4. Taking it locks the key, so it can be taken only once.
- The rest of the measure is a rank on the states for the fixed key snapshot. Every other state change a handler makes lowers the rank.

As a result a tick makes at most 8 handler calls.

### Code behaviour worth noting

- **Landing.** A landing (downward collision) zeroes momentum and grounds the player, but it keeps the jump force (`src/Scene/Player.java:207-210`).
- **Reload refill.** A finished reload refills the first weapon, in the order pistol, assault rifle, shotgun, whose pickup flag is set (`src/Screens/WorldThreeScreen.java:318-327`). This is not necessarily the weapon being fired. Once the pistol has been picked up, a reload never refills the rifle or the shotgun.
- **Enemy aim delay.**
  - The aim timer `shootTimer` is reset to 65 ticks only while `previousHumanState == WALK` (`src/Enemies/BaseHumanEnemy.java:101-104`). That field is assigned only in `initialize` (`src/Enemies/BaseHumanEnemy.java:51`), where it copies `humanState`.
  - For a freshly built enemy `humanState` is still `null` (modelled as `Unset`). So the enemy never aims: it fires on the tick it enters SHOOT_WAIT. Its first shot comes on tick 66 (`HumanEnemy.NewEnemyFirstShotOnTick66`).
  - An enemy re-initialised while `humanState` is WALK restarts its aim timer every tick and never fires again (`HumanEnemy.ReinitialisedAfterShotNeverFires`).
- **Pausing.** The pause key is handled in every screen state, not only while running. A P press during the level-completed or lose screen switches to PAUSED and then to RUNNING.
- **Pickups during a reload.** The pickup classes set their flags during the map update, after registration and before the reload advances. A pickup touched on the tick a reload finishes therefore decides which weapon is refilled, while the screen registers it only on the next tick.
- **Level-completed branch.** Nothing in `src/Screens/WorldThreeScreen.java` ever sets the screen state to LEVEL_COMPLETED or sets `levelCompletedStateChangeStart`, and the screen's `onLevelCompleted` (`src/Screens/WorldThreeScreen.java:506-508`) is empty. The countdown branch is modelled as written, but `WorldThree.CountdownRuns` and `WorldThree.LevelClearedReturnsToMenu` describe code no tick of the game reaches.

## Model

| member | source | states |
|---|---|---|
| PlayerFsm.NewPlayer | src/Scene/Player.java:41-49 | a new player faces right, is airborne, stands and runs the level, with no jump force or momentum and the jump key unlocked |
| PlayerFsm.IncreaseMomentum | src/Scene/Player.java:187-192 | momentum grows by its increment but never ends above terminal velocity, whatever its prior value; nothing else changes |
| PlayerFsm.DecayJumpForce | src/Scene/Player.java:149-164 | a positive jump force lifts the player by its amount and then decays, never below zero; it reaches zero exactly when it was at most the decay; a non-positive force does nothing |
| PlayerFsm.StandingStep | src/Scene/Player.java:101-111 | STANDING goes to WALKING if and only if a direction key is down; else to JUMPING if and only if the jump key is down and unlocked; else to CROUCHING if and only if crouch is down; the key ends locked exactly when it was locked or the jump is taken; the stand animation matches the facing; nothing else changes |
| PlayerFsm.WalkingStep | src/Scene/Player.java:113-131 | LEFT wins over RIGHT and sets facing; with both up the player stops walking; an available jump, else a held crouch, overrides; each resulting state is characterised exactly; the key ends locked exactly when it was locked or the jump is taken; the walk animation matches the facing before the step; only state, lock, animation, X delta and facing change |
| PlayerFsm.CrouchingStep | src/Scene/Player.java:133-142 | CROUCHING jumps if and only if a jump is available, stays if and only if no jump is available and crouch is down, and stands otherwise; the key ends locked exactly when it was locked or the jump is taken; the crouch animation matches the facing; nothing else changes |
| PlayerFsm.JumpingStep | src/Scene/Player.java:144-185 | on the ground twice in a row the jump starts (AIR, jump force set to the jump height, first decay applied, the jump animation for the facing); in the air one decay is applied, LEFT steers left at walk speed, else RIGHT steers right, else X is unchanged, facing is kept, momentum grows by its increment, capped at terminal velocity, exactly when the Y delta is positive after the decay, and nothing else changes; back on the ground after the air the player stands |
| PlayerFsm.AirborneJumpForceRunsOut | src/Scene/Player.java:157-164 | after `n` airborne passes the jump force is `n` decays lower, or zero once `n` decays cover it, so the lift lasts at most ceil(jump height / decay) passes |
| PlayerFsm.DecayedClosedForm | src/Scene/Player.java:157-164 | `n` decays floored at zero leave `f - n*d` while that is positive and zero afterwards |
| PlayerFsm.HandleState | src/Scene/Player.java:84-99 | every state change lowers the termination measure; the jump key gets locked only by taking an available jump; only the jump start changes air/ground; the Y delta never grows; jump force stays non-negative; momentum stays capped |
| PlayerFsm.Stabilize | src/Scene/Player.java:58-61 | the loop ends with the state equal to the previous state; a locked jump key cannot lead into JUMPING; a jump key that is up leaves the lock alone; entering JUMPING needs an available jump; JUMPING implies airborne |
| PlayerFsm.HandlerCalls | src/Scene/Player.java:58-61 | the stabilisation loop makes between 1 and 8 handler calls for any state and keys |
| PlayerFsm.StabilizeMakesHandlerCalls | src/Scene/Player.java:58-61 | the loop's result is exactly `HandlerCalls` passes of its body; every pass before the last changes the state and the last does not |
| PlayerFsm.ApplyGravity | src/Scene/Player.java:80-82 | the Y delta grows by gravity plus momentum and nothing else changes |
| PlayerFsm.Movement | src/Scene/Player.java:51-63 | after the movement pass the air/ground state is remembered, the state is stable, the Y delta is at most gravity plus momentum and exactly that (with momentum unchanged) unless the pass ends in JUMPING, and a JUMPING player is airborne |
| PlayerFsm.OnEndCollisionCheckY | src/Scene/Player.java:206-220 | DOWN with a hit grounds the player with zero momentum; DOWN without a hit forces JUMPING in the air; UP with a hit zeroes only the jump force; anything else changes nothing |
| PlayerFsm.UpdateLockedKeys | src/Scene/Player.java:194-198 | the jump key stays locked exactly when it was locked and is still down |
| PlayerFsm.Update | src/Scene/Player.java:51-78 | the level state never changes; outside RUNNING the horizontal delta is zero and facing and key lock are kept, a dead player keeps its state, air/ground and jump force, and its Y delta either becomes gravity plus momentum, with momentum grown and capped, or stays; its first tick starts the death animation and leaves the Y delta alone; a grounded player of a completed level keeps its Y delta and an airborne one gets gravity plus momentum as its Y delta; on a RUNNING tick facing, the deltas and the remembered states are the movement pass's, the state, air/ground and jump force are too unless the vertical callback changes them, momentum is the pass's unless the player lands, the jump lock is the pass's while the key is held, a jump key that is up ends the tick unlocked and a held one stays locked, and landing grounds the player with zero momentum; the JUMPING-airborne invariant, non-negative jump force and momentum cap are preserved |
| PlayerFsm.LevelCompletedStep | src/Scene/Player.java:228-243 | an airborne player's Y delta becomes gravity plus momentum, and momentum grows by its increment and is capped; it shows FALL_RIGHT and goes through the vertical callback (a landing grounds it with zero momentum); a grounded one changes only its animation, WALK_RIGHT while on camera, and changes nothing off camera |
| PlayerFsm.PlayerDeadStep | src/Scene/Player.java:245-263 | the first tick only starts the death animation for the facing direction; at the animation's last frame and on camera the Y delta becomes gravity plus momentum, and momentum grows by its increment and is capped; otherwise nothing changes |
| PlayerFsm.Notify | src/Scene/Player.java:235-260 | listeners are told only off camera and never while running: the level completion exactly for a grounded player of a completed level, the death exactly at the last frame of a death animation |
| PlayerFsm.Hurt | src/Scene/Player.java:222-226 | being hurt by an enemy sets PLAYER_DEAD and changes nothing else; anything else is ignored |
| PlayerFsm.JumpPressStartsJump | src/Scene/Player.java:101-155 | on the ground, an unlocked jump press from STANDING, WALKING or CROUCHING starts a jump in the same tick: key locked, airborne, Y delta and jump force after exactly one decay |
| PlayerFsm.HeldJumpKeyNeverRejumps | src/Scene/Player.java:194-198 | however long the jump key stays down after its press was used, the key stays locked and no tick lifts the player from the ground |
| PlayerFsm.LandingEndsJump | src/Scene/Player.java:182-184 | after a landing callback the next movement pass leaves JUMPING and stays on the ground, whatever keys are held |
| PlayerFsm.StoppedPlayerStopsSteering | src/Scene/Player.java:51-78 | once the level is not RUNNING, no run of ticks changes the level state, facing or jump key lock, the horizontal delta stays zero, and a dead player also keeps its state, air/ground state and jump force |
| PlayerFsm.HurtPlayerStaysDead | src/Scene/Player.java:222-263 | after being hurt by an enemy the player stays dead, keeps its state, air/ground state, facing, jump force and key lock, and never moves sideways |
| PlayerFsm.HurtPlayerReportsDeathAfterAnimation | src/Scene/Player.java:245-263 | the tick after a fatal hit starts the death animation, does not move and reports nothing; the next tick reports the death exactly at the last frame off camera |
| PlayerFsm.RunKeepsPhysicsBounds | src/Scene/Player.java:144-192 | over any run of ticks the jump force stays non-negative and momentum stays at or below terminal velocity |
| HumanEnemy.Initialize | src/Enemies/BaseHumanEnemy.java:47-60 | initialising faces the start direction with the matching walk animation, grounds the enemy, copies the shooting state into previousHumanState and sets the shoot wait to 65; nothing else changes |
| HumanEnemy.NewEnemy | src/Enemies/BaseHumanEnemy.java:36-45 | a new enemy walks with a full chase delay of 60, a shoot wait of 65 and an idle shooting pipeline |
| HumanEnemy.UpdateChase | src/Enemies/BaseHumanEnemy.java:71-80 | the chase delay stays within [0, 60]; out of range the enemy walks and the delay refills; in range the delay counts down, and once it is spent the enemy chases |
| HumanEnemy.UpdateShootWait | src/Enemies/BaseHumanEnemy.java:95-99 | a spent shoot wait enters SHOOT_WAIT unless already there; otherwise the wait counts down |
| HumanEnemy.UpdateAim | src/Enemies/BaseHumanEnemy.java:100-109 | SHOOT results if and only if the enemy is in SHOOT_WAIT, previousHumanState is not WALK and the aim timer is spent; with WALK remembered the aim timer resets to 65 with the shoot animation for the facing and nothing else changes; otherwise a spent timer changes only the state to SHOOT, and a running one counts down by one and changes nothing else |
| HumanEnemy.SpawnBullet | src/Enemies/BaseHumanEnemy.java:112-130 | the bullet's speed is +3 exactly when the enemy faces right (else -3); it spawns at the faced edge, 4 below the enemy's top, with range 300 |
| HumanEnemy.Update | src/Enemies/BaseHumanEnemy.java:62-143 | out of range forces WALK with a full delay; chasing faces the player; horizontal motion is nonzero exactly on the ground while walking or chasing, at 1.25 in the faced direction; gravity 0.5; a bullet resets to WALK with a 130-tick wait |
| HumanEnemy.OnEndCollisionCheckX | src/Enemies/BaseHumanEnemy.java:146-153 | a horizontal hit turns the enemy away from what it hit and picks the matching walk animation; no hit changes nothing |
| HumanEnemy.OnEndCollisionCheckY | src/Enemies/BaseHumanEnemy.java:156-163 | only the downward check sets air/ground, to GROUND exactly when it hit |
| HumanEnemy.Tick | src/Enemies/BaseHumanEnemy.java:137-163 | the callbacks change only facing, animation and air/ground: timers, shooting and movement states, deltas and bullet are those of `update`; a horizontal hit turns the enemy away from it; the enemy is grounded exactly after a DOWN hit, and no DOWN check leaves air/ground alone |
| HumanEnemy.ChaseDelayStaysInRange | src/Enemies/BaseHumanEnemy.java:71-80 | over any run of ticks the chase delay stays within [0, 60] |
| HumanEnemy.ChaseCountdown | src/Enemies/BaseHumanEnemy.java:71-76 | while the player stays in range and the delay lasts, each tick spends one unit and the movement state is unchanged |
| HumanEnemy.ChaseStartsWhenDelaySpent | src/Enemies/BaseHumanEnemy.java:71-76 | in range for one tick more than the remaining delay, the enemy ends up chasing |
| HumanEnemy.ChaseStartsOnTick61 | src/Enemies/BaseHumanEnemy.java:71-76 | from a full delay with the player continuously in range, a walking enemy chases on tick 61 and not before |
| HumanEnemy.IdleTick | src/Enemies/BaseHumanEnemy.java:95-135 | between shots a tick fires a bullet exactly when the wait is spent, otherwise counts it down, and then waits 130 |
| HumanEnemy.IdleEnemyFiresWhenWaitEnds | src/Enemies/BaseHumanEnemy.java:95-135 | an idle enemy fires no bullet until its wait runs out, exactly one on the tick after, and is idle with a 130-tick wait afterwards |
| HumanEnemy.NewEnemyFirstShotOnTick66 | src/Enemies/BaseHumanEnemy.java:47-135 | a new enemy fires nothing in its first 65 ticks and exactly one bullet by tick 66 |
| HumanEnemy.WalkRememberedEnemyNeverFires | src/Enemies/BaseHumanEnemy.java:101-104 | with WALK in previousHumanState the enemy never reaches SHOOT and fires no bullet in any run |
| HumanEnemy.ReinitialisedAfterShotNeverFires | src/Enemies/BaseHumanEnemy.java:51 | an enemy initialised while its shooting state is WALK fires no bullet in any run |
| HumanEnemy.WallBumpReversesWalk | src/Enemies/BaseHumanEnemy.java:146-153 | after bumping into a wall in its direction of travel, the enemy's next ground walking step has the opposite horizontal delta |
| WorldThree.ResetWeaponStatus | src/Screens/WorldThreeScreen.java:541-556 | all ammo at max, all pickup, registration and pickup-overlay flags cleared, no reload in progress |
| WorldThree.ResetOverlays | src/Screens/WorldThreeScreen.java:534-538 | no weapon overlay is shown and nothing else changes |
| WorldThree.Initialize | src/Screens/WorldThreeScreen.java:112-140 | initialising runs the level with all ammo at max and no pickups or reload, keeping the pause flag and overlays |
| WorldThree.NewScreen | src/Screens/WorldThreeScreen.java:74-140 | a new screen satisfies the weapon invariant, runs, is not paused and has the fire latch armed |
| WorldThree.NewPickup | src/Screens/WorldThreeScreen.java:152-170 | the pickup registered this tick is a taken, unregistered one of highest priority (pistol, rifle, shotgun), and there is none exactly when every taken pickup is registered |
| WorldThree.RegisterPickup | src/Screens/WorldThreeScreen.java:152-170 | at most one pickup is registered per tick; after it exactly its overlay is shown; the weapon invariant is preserved |
| WorldThree.StartReload | src/Screens/WorldThreeScreen.java:311-314 | a reload starts with its timer at zero, keeping the invariant |
| WorldThree.FinishReload | src/Screens/WorldThreeScreen.java:318-327 | the reload ends and exactly the first taken weapon in priority order is refilled to max; with the pistol taken, rifle and shotgun ammo are untouched |
| WorldThree.AdvanceReload | src/Screens/WorldThreeScreen.java:189-196 | a reloading tick counts up, and on reaching 60 ends the reload, resets the timer and refills; only ammo and reload state change |
| WorldThree.Fire | src/Screens/WorldThreeScreen.java:198-220 | the shot is the first ready weapon in priority order when SPACE is down and the latch is armed, else none; ammo drops by one only for the weapon fired and only from a positive count; cooldowns advance or reset for the weapon fired; the latch closes on a pistol shot and re-arms when SPACE is up |
| WorldThree.ChooseShot | src/Screens/WorldThreeScreen.java:202-215 | the weapon chosen is the first ready one in priority order (pistol, rifle, shotgun), and a chosen weapon is picked up, loaded and cooled down |
| WorldThree.Shoot | src/Screens/WorldThreeScreen.java:203-215 | a shot takes one round from the weapon fired and no other; the pistol closes the latch, the rifle and the shotgun reset their own cooldown; a loaded weapon keeps the invariant |
| WorldThree.FireKeepsValid | src/Screens/WorldThreeScreen.java:198-220 | firing from a valid arsenal leaves it valid: no ammo count goes below zero |
| WorldThree.TakePickups | src/Screens/WorldThreeScreen.java:179 | the pickups touched during the map update join the taken flags, nothing else changes, and the invariant is kept |
| WorldThree.ReadyIgnoresOtherFields | src/Screens/WorldThreeScreen.java:202-215 | which weapons may fire depends only on registration, ammo and cooldowns |
| WorldThree.ReloadOnKey | src/Screens/WorldThreeScreen.java:173-177 | R starts a reload with its timer at zero unless one is running; nothing else changes, and the invariant is kept |
| WorldThree.TakenPickupsAreNotReady | src/Screens/WorldThreeScreen.java:179-215 | pickups taken during the map update do not change which weapons may fire on that tick |
| WorldThree.Prepare | src/Screens/WorldThreeScreen.java:150-179 | registration, the R check and the map update leave ammo, cooldowns, the latch and the ready weapons as registration made them; the reload flag is set exactly when a reload runs or R is down; the taken flags gain this tick's pickups; the invariant is kept |
| WorldThree.WeaponTick | src/Screens/WorldThreeScreen.java:152-220 | a reload in progress or starting fires nothing and freezes the cooldowns and the latch; otherwise the shot is exactly the first weapon ready after registration when SPACE is down and the latch armed, and none else, and ammo drops by one for that weapon only; the latch closes exactly on a pistol shot while SPACE is down; the taken flags gain this tick's pickups while registration sees only earlier ones; the invariant is preserved |
| WorldThree.UpdatePauseState | src/Screens/WorldThreeScreen.java:268-284 | pausing toggles if and only if P is down and not locked; the lock is held exactly while P is down; a toggle selects PAUSED or RUNNING to match |
| WorldThree.LevelCompletedTick | src/Screens/WorldThreeScreen.java:239-250 | the first tick sets the timer to 130; later ticks count down and ask for the menu exactly when the timer reaches zero |
| WorldThree.Update | src/Screens/WorldThreeScreen.java:147-265 | shots come only from a running screen with SPACE down and the latch armed; on a running tick without a reload the shot is exactly the first weapon ready after registration when SPACE is down and the latch armed; game completion is requested exactly when running and the wave is complete; a running tick adds this tick's pickups to the taken flags and the paused and level-completed states do not touch them; the invariant is preserved; the lose screen restores full ammo and hides overlays; a paused screen changes nothing else |
| WorldThree.OnDeath | src/Screens/WorldThreeScreen.java:512-516 | death always ends in LEVEL_LOSE and changes nothing else, so calling it again changes nothing |
| WorldThree.RunPreservesValid | src/Screens/WorldThreeScreen.java:147-265 | from a valid screen, every run keeps ammo within [0, max], the reload timer in range, at most one overlay, and only taken pickups registered |
| WorldThree.ReloadPress | src/Screens/WorldThreeScreen.java:173-196 | an R press while running and not reloading starts a reload that has counted one tick, fires nothing, keeps ammo and takes this tick's pickups |
| WorldThree.ReloadTick | src/Screens/WorldThreeScreen.java:179-196 | a reloading tick fires nothing and either counts one more with ammo unchanged or, at 60, finishes and refills the first weapon flagged after this tick's pickups |
| WorldThree.ReloadRuns | src/Screens/WorldThreeScreen.java:179-196 | a reload in progress fires nothing for its remaining ticks and keeps ammo, then ends exactly when the timer reaches 60 and refills the first weapon flagged by then, counting pickups touched during the reload |
| WorldThree.ReloadTakesSixtyTicks | src/Screens/WorldThreeScreen.java:173-196 | an R press starts a reload that lasts through ticks 1 to 59, ends on tick 60, refills the first weapon whose pickup was taken by then, and fires no shot in between |
| WorldThree.PickupRegisteredOnNextTick | src/Screens/WorldThreeScreen.java:150-179 | a pickup touched on a running tick is not registered on that tick but on the next, which shows exactly its overlay |
| WorldThree.HeldFireKeyFiresPistolOnce | src/Screens/WorldThreeScreen.java:202-219 | with SPACE held throughout, the pistol fires at most once, and never if the latch was already closed |
| WorldThree.HeldFireKeyFiresReadyPistolOnce | src/Screens/WorldThreeScreen.java:198-220 | a running screen with the latch armed, the pistol registered and loaded, and no reload or P on the first tick fires the pistol exactly once however long SPACE is held |
| WorldThree.HeldPauseKeyTogglesOnce | src/Screens/WorldThreeScreen.java:268-284 | holding P toggles pausing once if the key was unlocked and never if it was locked, and leaves it locked |
| WorldThree.CountdownRuns | src/Screens/WorldThreeScreen.java:239-250 | once the countdown is set, each tick without P lowers the timer by one in the level-completed state |
| WorldThree.LevelClearedReturnsToMenu | src/Screens/WorldThreeScreen.java:239-250 | after entering the level-completed state the screen asks for the menu on its 131st tick and not before |
| Menu.Initialize | src/Screens/MenuScreen.java:41-43 | initialising clears the repeat delay and the selection, locks SPACE and keeps the hover |
| Menu.NewMenu | src/Screens/MenuScreen.java:14-44 | a new menu hovers PLAY GAME with nothing selected and SPACE locked |
| Menu.Wrap | src/Screens/MenuScreen.java:64-68 | after wrapping the hover is 0 or 1; one past the end goes to 0, one before the start to 1, and in-range values are kept |
| Menu.HoverStep | src/Screens/MenuScreen.java:50-60 | the hover moves only when the delay is zero and an arrow is down, and RIGHT wins over LEFT |
| Menu.Update | src/Screens/MenuScreen.java:46-97 | the hover is always 0 or 1 and flips exactly on a move; the pointer sits at x 170 or 440 (y 505) to match; a move sets the delay to 14, otherwise it counts down to 0; a selection happens exactly when SPACE is down and was unlocked, copying the hover, with 0 meaning LEVEL and 1 CREDITS |
| Menu.HeldSpaceNeverSelects | src/Screens/MenuScreen.java:86-96 | SPACE held down since it was locked at initialisation never selects, however long it is held |
| Menu.DelayHoldsHover | src/Screens/MenuScreen.java:50-60 | while the repeat delay runs, no key moves the hover and the delay drops by one per tick |
| Menu.HeldRightRepeatsEveryFifteenTicks | src/Screens/MenuScreen.java:50-68 | holding RIGHT moves the hover on tick 1, not on ticks 2 to 15, and again on tick 16 |

## Left out

- Drawing is not modelled: `draw`, the ammo, hit-point and coin overlays, animations, image loading and sprite fonts are rendering and asset I/O. Animation names are carried where a handler sets one, and the contracts state the name each handler sets, except the airborne choice below and `HumanEnemy.Update`, whose own code (`src/Enemies/BaseHumanEnemy.java:62-143`) sets only the shoot animation covered by `HumanEnemy.UpdateAim`.
- The collision resolver (`moveXHandleCollision`, `moveYHandleCollision`, bounds intersection) lives in classes that are not part of this model. Its outcome is an input to the callbacks, and the movement it performs is not modelled.
- The player's positions are not modelled, so the walk off screen in `levelCompleted` (`src/Scene/Player.java:237`) and the body's `moveY` in `playerDead` (`src/Scene/Player.java:256`) move nothing in the model.
- PlayerFsm.PlayerDeadStep: the dying body moves by `moveAmountY + momentumY` (`src/Scene/Player.java:256`), one momentum more than the Y delta the contract states; the displacement itself is not modelled because positions are not.
- The airborne JUMP/FALL animation choice (`src/Scene/Player.java:166-170`) is not modelled, because it reads the unseen `previousY` against a rounded position.
- The player's horizontal collision callback is empty in the source and is not modelled.
- The enemy and bullet collision loop of the running screen (`src/Screens/WorldThreeScreen.java:223-236`) is not modelled, because it relies on unseen entity types and bounds. Its effect on the screen is `onDeath`, which is modelled as `WorldThree.OnDeath`.
- `player.update`, `map.update`, the level-cleared, lose and pause sub-screens' own updates, and the screen coordinator are outside this model. The requests the screen makes of the coordinator are results of `WorldThree.Update`, and the wave-complete flag is an input.
- `spawnFutureBullets` is empty in the source. A shot is reported as the weapon fired.
- `src/Maps/Map1.java` (level data) and `src/Collectibles/InstaKill.java` (a pickup whose logic is an unseen intersection test) are not part of this model.
- The pickup classes are not part of this model. The pickups the player touches during the map update are a tick input that sets their taken flags. Whether touching a pickup also sets its own overlay flag is not modelled: that flag is only cleared by the weapon reset.
- HumanEnemy.Update: the calls `super.initialize()` (`src/Enemies/BaseHumanEnemy.java:49`) and `super.update(player)` (`src/Enemies/BaseHumanEnemy.java:142`) go to base classes that are not part of this model. The assignment `player = null` inside the bullet constructor call (`src/Enemies/BaseHumanEnemy.java:129`) makes every firing tick pass `null` to that base update; its effect is unknown here and not modelled.
- Float arithmetic and `Math.round` are not modelled: speeds, gravity and momentum are exact `real`s, and the enemy's rounded position is given as integers.
- WorldThree.Fire: the cooldown timers are unbounded integers, so the wrap-around of the Java `int` counters after about 2^31 ticks without firing is not modelled.
- WorldThree.CountdownRuns: the screen timer is an unbounded integer; after the menu request it keeps counting down below zero, as the source does, but Java `int` wrap-around is not modelled.

=== FILE: common.dfy ===
/** Vocabulary shared by the player, enemy and screen models: directions,
    air/ground state, the keyboard snapshot a tick reads, and the outcome the
    collision resolver reports to an entity's callbacks. */
module Common {

  /** Facing or movement direction of an entity. */
  datatype Direction = Left | Right | Up | Down

  /** Whether an entity stands on something or is airborne. */
  datatype AirGround = Air | Ground

  /** The keys the modelled code polls. */
  datatype Key = ArrowUp | ArrowDown | ArrowLeft | ArrowRight | Space | KeyR | KeyP

  /** The keys held down during one tick. A key is up exactly when it is not
      down, so `isKeyUp(k)` is `k !in keys`. */
  type Keys = set<Key>

  /** What the (unmodelled) collision resolver passes to an
      `onEndCollisionCheck` callback after moving along one axis. */
  datatype Collision = Collision(hasCollided: bool, direction: Direction)

  datatype Option<+T> = None | Some(value: T)

}

=== FILE: human_enemy.dfy ===
/** The human enemy's per-tick AI: a distance-gated chase delay, movement on
    the ground in the facing direction, an independent shoot-wait / aim /
    shoot pipeline that spawns one bullet at a time, and the collision
    callbacks that turn it around or set its air/ground state. */
module HumanEnemy {
  import opened Common

  /** `Unset` stands for the Java `null` that `humanState` and
      `previousHumanState` hold until something assigns them. */
  datatype HumanState = Unset | Walk | ShootWait | Shoot | Chase

  const Gravity: real := 0.5
  const MovementSpeed: real := 1.25
  const ChaseRange: real := 500.0
  const ChaseDelay: int := 60
  const InitialShootWait: int := 65
  const AimTime: int := 65
  const ShootCooldown: int := 130
  const BulletSpeed: int := 3
  const BulletRange: int := 300
  const BulletLeftOffset: int := 21
  const BulletYOffset: int := 4
  const StartHitPoints: int := 3

  datatype Enemy = Enemy(
    startFacing: Direction,
    facing: Direction,
    airGround: AirGround,
    currentState: HumanState,       // movement: WALK or CHASE
    humanState: HumanState,         // shooting pipeline
    previousHumanState: HumanState,
    chaseDelayTimer: int,
    shootWaitTimer: int,
    shootTimer: int,
    hitPoints: int,
    animation: string)

  /** The enemy's rounded position and sprite width this tick; only the
      bullet spawn point reads them. */
  datatype Placement = Placement(x: int, y: int, width: int)

  /** A projectile spawned by the enemy: where, how fast (sign = direction)
      and how far it may travel. */
  datatype Bullet = Bullet(x: int, y: int, speed: int, range: int)

  /** The enemy after `update`, the deltas handed to the collision resolver,
      and the bullet added to the map, if any. */
  datatype StepResult = StepResult(enemy: Enemy, moveAmountX: real, moveAmountY: real, bullet: Option<Bullet>)

  /** What one tick reads: the player's horizontal offset (`player.x - x`),
      the enemy's placement, and the collision outcomes on both axes. */
  datatype EnemyInput = EnemyInput(dx: real, at: Placement, yHit: Collision, xHit: Collision)

  function Abs(x: real): real {
    if x < 0.0 then -x else x
  }

  predicate InChaseRange(dx: real) {
    Abs(dx) < ChaseRange
  }

  function WalkAnimation(facing: Direction, otherwise: string): string {
    if facing == Right then "WALK_RIGHT" else if facing == Left then "WALK_LEFT" else otherwise
  }

  /** `initialize`: face the start direction, remember the shooting state,
      stand on the ground and wait 65 ticks before the first shot. */
  function Initialize(e: Enemy): (r: Enemy)
    ensures r.facing == e.startFacing && r.airGround == Ground
    ensures r.previousHumanState == e.humanState && r.humanState == e.humanState
    ensures r.shootWaitTimer == InitialShootWait
    ensures r.chaseDelayTimer == e.chaseDelayTimer && r.shootTimer == e.shootTimer
    ensures e.startFacing == Right ==> r.animation == "WALK_RIGHT"
    ensures e.startFacing == Left ==> r.animation == "WALK_LEFT"
    ensures r == e.(facing := r.facing, previousHumanState := r.previousHumanState, animation := r.animation,
                    airGround := r.airGround, shootWaitTimer := r.shootWaitTimer)
  {
    e.(facing := e.startFacing, previousHumanState := e.humanState,
       animation := WalkAnimation(e.startFacing, e.animation),
       airGround := Ground, shootWaitTimer := InitialShootWait)
  }

  /** A freshly constructed enemy: walking, three hit points, chase delay full. */
  function NewEnemy(startFacing: Direction): (e: Enemy)
    ensures Idle(e) && e.shootWaitTimer == InitialShootWait
    ensures e.currentState == Walk && e.chaseDelayTimer == ChaseDelay && e.facing == startFacing
  {
    Initialize(Enemy(startFacing, startFacing, Ground, Walk, Unset, Unset,
                     ChaseDelay, InitialShootWait, 0, StartHitPoints, "WALK_LEFT"))
  }

  /** The chase delay: in range, count down and chase once the count is
      spent; out of range, walk and refill the count. */
  function UpdateChase(e: Enemy, dx: real): (r: Enemy)
    ensures 0 <= e.chaseDelayTimer <= ChaseDelay ==> 0 <= r.chaseDelayTimer <= ChaseDelay
    ensures !InChaseRange(dx) ==> r.currentState == Walk && r.chaseDelayTimer == ChaseDelay
    ensures InChaseRange(dx) ==>
              if e.chaseDelayTimer == 0 then r.currentState == Chase && r.chaseDelayTimer == 0
              else r.currentState == e.currentState && r.chaseDelayTimer == e.chaseDelayTimer - 1
    ensures r == e.(currentState := r.currentState, chaseDelayTimer := r.chaseDelayTimer)
  {
    if InChaseRange(dx) then
      if e.chaseDelayTimer == 0 then e.(currentState := Chase)
      else e.(chaseDelayTimer := e.chaseDelayTimer - 1)
    else
      e.(currentState := Walk, chaseDelayTimer := ChaseDelay)
  }

  /** The shoot-wait countdown: once spent, enter SHOOT_WAIT; otherwise count down. */
  function UpdateShootWait(e: Enemy): (r: Enemy)
    ensures e.shootWaitTimer == 0 && e.humanState != ShootWait ==> r == e.(humanState := ShootWait)
    ensures e.shootWaitTimer != 0 || e.humanState == ShootWait ==>
              r == e.(shootWaitTimer := e.shootWaitTimer - 1)
  {
    if e.shootWaitTimer == 0 && e.humanState != ShootWait then e.(humanState := ShootWait)
    else e.(shootWaitTimer := e.shootWaitTimer - 1)
  }

  /** SHOOT_WAIT: aim (reset the aim timer) while `previousHumanState` is
      WALK; otherwise shoot once the aim timer is spent, else count it down. */
  function UpdateAim(e: Enemy): (r: Enemy)
    ensures r.humanState == Shoot <==>
              (e.humanState == Shoot || (e.humanState == ShootWait && e.previousHumanState != Walk && e.shootTimer == 0))
    ensures e.humanState == ShootWait && e.previousHumanState == Walk ==>
              && r.humanState == ShootWait && r.shootTimer == AimTime
              && r.animation == (if e.facing == Right then "SHOOT_RIGHT" else "SHOOT_LEFT")
              && r == e.(shootTimer := AimTime, animation := r.animation)
    ensures e.humanState == ShootWait && e.previousHumanState != Walk && e.shootTimer == 0 ==>
              r == e.(humanState := Shoot)
    ensures e.humanState == ShootWait && e.previousHumanState != Walk && e.shootTimer != 0 ==>
              r == e.(shootTimer := e.shootTimer - 1)
    ensures e.humanState != ShootWait ==> r == e
    ensures r.shootWaitTimer == e.shootWaitTimer && r.previousHumanState == e.previousHumanState
    ensures r.facing == e.facing
  {
    if e.humanState == ShootWait then
      if e.previousHumanState == Walk then
        e.(shootTimer := AimTime, animation := if e.facing == Right then "SHOOT_RIGHT" else "SHOOT_LEFT")
      else if e.shootTimer == 0 then e.(humanState := Shoot)
      else e.(shootTimer := e.shootTimer - 1)
    else
      e
  }

  /** The bullet leaves from the edge the enemy faces and flies that way. */
  function SpawnBullet(e: Enemy, at: Placement): (b: Bullet)
    ensures b.speed > 0 <==> e.facing == Right
    ensures b.speed == BulletSpeed || b.speed == -BulletSpeed
    ensures b.x == if e.facing == Right then at.x + at.width else at.x - BulletLeftOffset
    ensures b.y == at.y + BulletYOffset && b.range == BulletRange
  {
    if e.facing == Right then Bullet(at.x + at.width, at.y + BulletYOffset, BulletSpeed, BulletRange)
    else Bullet(at.x - BulletLeftOffset, at.y + BulletYOffset, -BulletSpeed, BulletRange)
  }

  /** One call of `update`, before collision callbacks. */
  function Update(e: Enemy, dx: real, at: Placement): (r: StepResult)
    ensures !InChaseRange(dx) ==> r.enemy.currentState == Walk && r.enemy.chaseDelayTimer == ChaseDelay
    ensures r.enemy.currentState == Chase ==> (r.enemy.facing == Right <==> dx > 0.0)
    ensures r.enemy.currentState != Chase ==> r.enemy.facing == e.facing
    ensures r.moveAmountX != 0.0 <==>
              e.airGround == Ground && (r.enemy.currentState == Walk || r.enemy.currentState == Chase)
    ensures r.moveAmountX != 0.0 ==>
              r.moveAmountX == if r.enemy.facing == Right then MovementSpeed else -MovementSpeed
    ensures r.moveAmountY == Gravity
    ensures r.bullet.Some? ==>
              && r.enemy.humanState == Walk && r.enemy.shootWaitTimer == ShootCooldown
              && r.bullet.value == SpawnBullet(r.enemy, at)
    ensures r.bullet.None? ==> r.enemy.humanState != Shoot
    ensures r.enemy.airGround == e.airGround && r.enemy.previousHumanState == e.previousHumanState
  {
    var e1 := UpdateChase(e, dx);
    var e2 := if e1.currentState == Chase then e1.(facing := if dx > 0.0 then Right else Left) else e1;
    var moveX :=
      if (e2.currentState == Walk || e2.currentState == Chase) && e2.airGround == Ground then
        (if e2.facing == Right then MovementSpeed else -MovementSpeed)
      else 0.0;
    var e3 := UpdateAim(UpdateShootWait(e2));
    if e3.humanState == Shoot then
      StepResult(e3.(humanState := Walk, shootWaitTimer := ShootCooldown), moveX, Gravity,
                 Some(SpawnBullet(e3, at)))
    else
      StepResult(e3, moveX, Gravity, None)
  }

  /** A horizontal collision turns the enemy away from what it hit. */
  function OnEndCollisionCheckX(e: Enemy, hit: Collision): (r: Enemy)
    ensures hit.hasCollided ==>
              && r.facing == (if hit.direction == Right then Left else Right)
              && r.facing != hit.direction
              && r.animation == WalkAnimation(r.facing, e.animation)
    ensures !hit.hasCollided ==> r == e
    ensures r == e.(facing := r.facing, animation := r.animation)
  {
    if hit.hasCollided then
      var f := if hit.direction == Right then Left else Right;
      e.(facing := f, animation := if f == Right then "WALK_RIGHT" else "WALK_LEFT")
    else
      e
  }

  /** Only the downward check decides whether the enemy stands on something. */
  function OnEndCollisionCheckY(e: Enemy, hit: Collision): (r: Enemy)
    ensures hit.direction == Down ==> (r.airGround == Ground <==> hit.hasCollided)
    ensures hit.direction != Down ==> r == e
    ensures r == e.(airGround := r.airGround)
  {
    if hit.direction == Down then e.(airGround := if hit.hasCollided then Ground else Air) else e
  }

  /** A whole tick: `update`, then the vertical and the horizontal callbacks.
      The callbacks touch only the facing, the animation and the air/ground
      state; the timers, the shooting and movement states, the deltas and
      the bullet are those `update` produced. */
  function Tick(e: Enemy, input: EnemyInput): (r: StepResult)
    ensures var u := Update(e, input.dx, input.at);
      && r.moveAmountX == u.moveAmountX && r.moveAmountY == u.moveAmountY && r.bullet == u.bullet
      && r.enemy == u.enemy.(facing := r.enemy.facing, animation := r.enemy.animation,
                             airGround := r.enemy.airGround)
      && (input.xHit.hasCollided ==> r.enemy.facing != input.xHit.direction)
      && (!input.xHit.hasCollided ==> r.enemy.facing == u.enemy.facing && r.enemy.animation == u.enemy.animation)
    ensures input.yHit.direction == Down ==> (r.enemy.airGround == Ground <==> input.yHit.hasCollided)
    ensures input.yHit.direction != Down ==> r.enemy.airGround == e.airGround
  {
    var u := Update(e, input.dx, input.at);
    u.(enemy := OnEndCollisionCheckX(OnEndCollisionCheckY(u.enemy, input.yHit), input.xHit))
  }

  /** The enemy after a sequence of ticks. */
  function Run(e: Enemy, ins: seq<EnemyInput>): Enemy
    decreases |ins|
  {
    if |ins| == 0 then e else Run(Tick(e, ins[0]).enemy, ins[1..])
  }

  /** How many bullets a sequence of ticks spawns. */
  function BulletsFired(e: Enemy, ins: seq<EnemyInput>): nat
    decreases |ins|
  {
    if |ins| == 0 then 0
    else (if Tick(e, ins[0]).bullet.Some? then 1 else 0) + BulletsFired(Tick(e, ins[0]).enemy, ins[1..])
  }

  /** The shooting pipeline between shots, as a freshly built enemy runs it:
      `previousHumanState` is not WALK, the aim timer is spent, and the
      enemy waits at most 130 ticks outside SHOOT_WAIT and SHOOT. */
  predicate Idle(e: Enemy) {
    && e.previousHumanState != Walk
    && e.shootTimer == 0
    && 0 <= e.shootWaitTimer <= ShootCooldown
    && e.humanState != ShootWait && e.humanState != Shoot
  }

  /** The enemy after `k` of the ticks in `ins` is the enemy after the first
      tick followed by `k - 1` of the rest. */
  lemma RunUnfold(e: Enemy, ins: seq<EnemyInput>, k: nat)
    requires 1 <= k <= |ins|
    ensures Run(e, ins[..k]) == Run(Tick(e, ins[0]).enemy, ins[1..][..k - 1])
    ensures BulletsFired(e, ins[..k]) ==
              (if Tick(e, ins[0]).bullet.Some? then 1 else 0) + BulletsFired(Tick(e, ins[0]).enemy, ins[1..][..k - 1])
  {
    assert ins[..k][1..] == ins[1..][..k - 1];
  }

  /** The chase delay never leaves [0, 60], whatever the player does. */
  lemma {:induction false} ChaseDelayStaysInRange(e: Enemy, ins: seq<EnemyInput>)
    requires 0 <= e.chaseDelayTimer <= ChaseDelay
    ensures 0 <= Run(e, ins).chaseDelayTimer <= ChaseDelay
    decreases |ins|
  {
    if |ins| > 0 {
      ChaseDelayStaysInRange(Tick(e, ins[0]).enemy, ins[1..]);
    }
  }

  /** While the player stays in range, each tick spends one unit of the
      chase delay and the movement state does not change. */
  lemma {:induction false} ChaseCountdown(e: Enemy, ins: seq<EnemyInput>)
    requires |ins| <= e.chaseDelayTimer
    requires forall i :: 0 <= i < |ins| ==> InChaseRange(ins[i].dx)
    ensures Run(e, ins).chaseDelayTimer == e.chaseDelayTimer - |ins|
    ensures Run(e, ins).currentState == e.currentState
    decreases |ins|
  {
    if |ins| > 0 {
      ChaseCountdown(Tick(e, ins[0]).enemy, ins[1..]);
    }
  }

  /** While the chase delay lasts, a prefix of an in-range run keeps the
      movement state. */
  lemma ChaseWaitsOnPrefix(e: Enemy, ins: seq<EnemyInput>, k: nat)
    requires k <= |ins| && k <= e.chaseDelayTimer
    requires forall i :: 0 <= i < |ins| ==> InChaseRange(ins[i].dx)
    ensures Run(e, ins[..k]).currentState == e.currentState
    ensures Run(e, ins[..k]).chaseDelayTimer == e.chaseDelayTimer - k
  {
    var pre := ins[..k];
    assert forall i :: 0 <= i < |pre| ==> pre[i] == ins[i];
    ChaseCountdown(e, pre);
  }

  /** From a full chase delay with the player continuously in range, a
      walking enemy starts chasing on the 61st tick and not before. */
  lemma ChaseStartsOnTick61(e: Enemy, ins: seq<EnemyInput>)
    requires e.chaseDelayTimer == ChaseDelay && e.currentState == Walk
    requires |ins| == ChaseDelay + 1
    requires forall i :: 0 <= i < |ins| ==> InChaseRange(ins[i].dx)
    ensures forall k :: 0 <= k <= ChaseDelay ==> Run(e, ins[..k]).currentState == Walk
    ensures Run(e, ins).currentState == Chase
  {
    forall k | 0 <= k <= ChaseDelay
      ensures Run(e, ins[..k]).currentState == Walk
    {
      ChaseWaitsOnPrefix(e, ins, k);
    }
    ChaseStartsWhenDelaySpent(e, ins);
  }

  /** In range for one tick more than the remaining chase delay, the enemy
      ends up chasing. */
  lemma ChaseStartsWhenDelaySpent(e: Enemy, ins: seq<EnemyInput>)
    requires 0 <= e.chaseDelayTimer && |ins| == e.chaseDelayTimer + 1
    requires forall i :: 0 <= i < |ins| ==> InChaseRange(ins[i].dx)
    ensures Run(e, ins).currentState == Chase
  {
    var k := e.chaseDelayTimer;
    ChaseWaitsOnPrefix(e, ins, k);
    RunSnoc(e, ins, k);
    assert ins[..k + 1] == ins;
  }

  /** Running `k + 1` ticks is running `k` ticks and then one more. */
  lemma {:induction false} RunSnoc(e: Enemy, ins: seq<EnemyInput>, k: nat)
    requires k < |ins|
    ensures Run(e, ins[..k + 1]) == Tick(Run(e, ins[..k]), ins[k]).enemy
    ensures BulletsFired(e, ins[..k + 1]) ==
              BulletsFired(e, ins[..k]) + (if Tick(Run(e, ins[..k]), ins[k]).bullet.Some? then 1 else 0)
    decreases k
  {
    if k == 0 {
      assert ins[..1][1..] == [];
      assert ins[..0] == [];
    } else {
      var e1 := Tick(e, ins[0]).enemy;
      var b := if Tick(e, ins[0]).bullet.Some? then 1 else 0;
      var rest := ins[1..];
      assert rest[k - 1] == ins[k];
      calc {
        Run(e, ins[..k + 1]);
      == { RunUnfold(e, ins, k + 1); }
        Run(e1, rest[..k]);
      == { RunSnoc(e1, rest, k - 1); }
        Tick(Run(e1, rest[..k - 1]), ins[k]).enemy;
      == { RunUnfold(e, ins, k); }
        Tick(Run(e, ins[..k]), ins[k]).enemy;
      }
      calc {
        BulletsFired(e, ins[..k + 1]);
      == { RunUnfold(e, ins, k + 1); }
        b + BulletsFired(e1, rest[..k]);
      == { RunSnoc(e1, rest, k - 1); }
        b + BulletsFired(e1, rest[..k - 1]) + (if Tick(Run(e1, rest[..k - 1]), ins[k]).bullet.Some? then 1 else 0);
      == { RunUnfold(e, ins, k); }
        BulletsFired(e, ins[..k]) + (if Tick(Run(e, ins[..k]), ins[k]).bullet.Some? then 1 else 0);
      }
    }
  }

  /** Between shots the pipeline is a plain countdown: a tick with wait time
      left spends one unit and fires nothing; the tick that finds it spent
      fires exactly one bullet and waits 130 ticks again. */
  lemma IdleTick(e: Enemy, input: EnemyInput)
    requires Idle(e)
    ensures var r := Tick(e, input);
      && Idle(r.enemy)
      && (r.bullet.Some? <==> e.shootWaitTimer == 0)
      && (e.shootWaitTimer > 0 ==> r.enemy.shootWaitTimer == e.shootWaitTimer - 1)
      && (e.shootWaitTimer == 0 ==> r.enemy.shootWaitTimer == ShootCooldown)
  {
  }

  /** An idle enemy fires its next bullet on the tick after its wait runs
      out, not earlier, and then waits 130 ticks again. */
  lemma {:induction false} IdleEnemyFiresWhenWaitEnds(e: Enemy, ins: seq<EnemyInput>)
    requires Idle(e) && |ins| == e.shootWaitTimer + 1
    ensures BulletsFired(e, ins[..|ins| - 1]) == 0
    ensures BulletsFired(e, ins) == 1
    ensures Idle(Run(e, ins)) && Run(e, ins).shootWaitTimer == ShootCooldown
    decreases |ins|
  {
    IdleTick(e, ins[0]);
    var e1 := Tick(e, ins[0]).enemy;
    if e.shootWaitTimer == 0 {
      assert ins[..0] == [];
      assert ins[1..] == [];
    } else {
      var rest := ins[1..];
      IdleEnemyFiresWhenWaitEnds(e1, rest);
      assert BulletsFired(e, ins[..|ins| - 1]) == 0 by {
        RunUnfold(e, ins, |ins| - 1);
        assert rest[..|ins| - 2] == rest[..|rest| - 1];
      }
      assert Run(e, ins) == Run(e1, rest) && BulletsFired(e, ins) == BulletsFired(e1, rest) by {
        assert ins[..|ins|] == ins;
        RunUnfold(e, ins, |ins|);
        assert rest[..|ins| - 1] == rest;
      }
    }
  }

  /** A freshly built enemy fires its first bullet on tick 66 and none before. */
  lemma NewEnemyFirstShotOnTick66(facing: Direction, ins: seq<EnemyInput>)
    requires |ins| == InitialShootWait + 1
    ensures BulletsFired(NewEnemy(facing), ins[..InitialShootWait]) == 0
    ensures BulletsFired(NewEnemy(facing), ins) == 1
  {
    IdleEnemyFiresWhenWaitEnds(NewEnemy(facing), ins);
  }

  /** An enemy whose `previousHumanState` is WALK (an `initialize` call made
      while `humanState` was WALK) aims forever once in SHOOT_WAIT: it never
      fires again, whatever happens. */
  lemma {:induction false} WalkRememberedEnemyNeverFires(e: Enemy, ins: seq<EnemyInput>)
    requires e.previousHumanState == Walk && e.humanState != Shoot
    ensures BulletsFired(e, ins) == 0
    ensures Run(e, ins).humanState != Shoot
    decreases |ins|
  {
    if |ins| > 0 {
      WalkRememberedEnemyNeverFires(Tick(e, ins[0]).enemy, ins[1..]);
    }
  }

  /** Re-initialising an enemy between shots (its `humanState` is WALK
      after every shot) silences it for good. */
  lemma ReinitialisedAfterShotNeverFires(e: Enemy, ins: seq<EnemyInput>)
    requires e.humanState == Walk
    ensures BulletsFired(Initialize(e), ins) == 0
  {
    WalkRememberedEnemyNeverFires(Initialize(e), ins);
  }

  /** A blocked walk turns the enemy around: after bumping into a wall in
      the direction it moved, its next walking step on the ground goes the
      other way at the same speed. */
  lemma WallBumpReversesWalk(e: Enemy, input: EnemyInput, next: EnemyInput)
    requires Update(e, input.dx, input.at).moveAmountX != 0.0
    requires input.xHit == Collision(true, Update(e, input.dx, input.at).enemy.facing)
    requires input.yHit == Collision(true, Down)
    requires !InChaseRange(next.dx)
    ensures Tick(Tick(e, input).enemy, next).moveAmountX == -Tick(e, input).moveAmountX
  {
  }
}

=== FILE: menu.dfy ===
/** The main menu: two items, PLAY GAME and CREDITS, a hover that moves
    left and right with a 14-tick key repeat delay and wraps around, a
    pointer placed in front of the hovered item, and a SPACE selection that
    must not be held over from the screen before. */
module Menu {
  import opened Common

  const PlayGameItem: int := 0
  const CreditsItem: int := 1
  const KeyPressDelay: int := 14
  const PlayGamePointerX: int := 170
  const CreditsPointerX: int := 440
  const PointerY: int := 505

  /** The game state a selection asks the screen coordinator for. */
  datatype MenuRequest = NoChange | GoToLevel | GoToCredits

  datatype MenuScreen = MenuScreen(
    hovered: int,          // currentMenuItemHovered
    selected: int,         // menuItemSelected, -1 when nothing is chosen
    keyPressTimer: int,
    pointerX: int,
    pointerY: int,
    spaceLocked: bool)     // the key locker's entry for SPACE

  datatype MenuStep = MenuStep(menu: MenuScreen, request: MenuRequest)

  /** The hover is on one of the two items and the repeat delay is in range. */
  predicate Valid(m: MenuScreen) {
    && (m.hovered == PlayGameItem || m.hovered == CreditsItem)
    && 0 <= m.keyPressTimer <= KeyPressDelay
  }

  /** `initialize`: clear the repeat delay and the selection and lock SPACE,
      so that a SPACE press still held from the previous screen selects
      nothing. The hover is kept. */
  function Initialize(m: MenuScreen): (r: MenuScreen)
    ensures r.keyPressTimer == 0 && r.selected == -1 && r.spaceLocked
    ensures r.hovered == m.hovered && r.pointerX == m.pointerX && r.pointerY == m.pointerY
    ensures (m.hovered == PlayGameItem || m.hovered == CreditsItem) ==> Valid(r)
  {
    m.(keyPressTimer := 0, selected := -1, spaceLocked := true)
  }

  /** A constructed and initialised menu, hovering PLAY GAME. */
  function NewMenu(): (m: MenuScreen)
    ensures Valid(m) && m.hovered == PlayGameItem && m.spaceLocked && m.selected == -1
  {
    Initialize(MenuScreen(PlayGameItem, -1, 0, 0, 0, false))
  }

  /** Brings an index one step past either end back to the other end. */
  function Wrap(h: int): (r: int)
    ensures r == PlayGameItem || r == CreditsItem
    ensures PlayGameItem <= h <= CreditsItem ==> r == h
    ensures h == CreditsItem + 1 ==> r == PlayGameItem
    ensures h == PlayGameItem - 1 ==> r == CreditsItem
  {
    if h > 1 then 0 else if h < 0 then 1 else h
  }

  /** The step the arrow keys give the hover this tick: RIGHT wins over
      LEFT, and neither moves it while the repeat delay runs. */
  function HoverStep(m: MenuScreen, keys: Keys): (d: int)
    ensures d != 0 <==> m.keyPressTimer == 0 && (ArrowRight in keys || ArrowLeft in keys)
    ensures d == 1 <==> m.keyPressTimer == 0 && ArrowRight in keys
    ensures -1 <= d <= 1
  {
    if ArrowRight in keys && m.keyPressTimer == 0 then 1
    else if ArrowLeft in keys && m.keyPressTimer == 0 then -1
    else 0
  }

  /** `update`. With two items every move flips the hover; a move restarts
      the 14-tick delay, which otherwise counts down to zero; the pointer
      follows the hover; a SPACE press selects the hovered item exactly when
      SPACE is down and was not locked, and the lock lasts only while SPACE
      stays down. */
  function Update(m: MenuScreen, keys: Keys): (r: MenuStep)
    ensures r.menu.hovered == PlayGameItem || r.menu.hovered == CreditsItem
    ensures r.menu.pointerX == (if r.menu.hovered == PlayGameItem then PlayGamePointerX else CreditsPointerX)
    ensures r.menu.pointerY == PointerY
    ensures Valid(m) ==> Valid(r.menu)
    ensures Valid(m) ==> (r.menu.hovered != m.hovered <==> HoverStep(m, keys) != 0)
    ensures HoverStep(m, keys) != 0 ==> r.menu.keyPressTimer == KeyPressDelay
    ensures HoverStep(m, keys) == 0 ==> r.menu.keyPressTimer == (if m.keyPressTimer > 0 then m.keyPressTimer - 1 else m.keyPressTimer)
    ensures r.menu.spaceLocked <==> m.spaceLocked && Space in keys
    ensures r.request != NoChange <==> Space in keys && !m.spaceLocked
    ensures r.request != NoChange ==> r.menu.selected == r.menu.hovered
    ensures r.request == NoChange ==> r.menu.selected == m.selected
    ensures r.request == GoToLevel <==> r.request != NoChange && r.menu.hovered == PlayGameItem
  {
    var d := HoverStep(m, keys);
    var timer :=
      if d != 0 then KeyPressDelay
      else if m.keyPressTimer > 0 then m.keyPressTimer - 1
      else m.keyPressTimer;
    var hovered := Wrap(m.hovered + d);
    var pointerX := if hovered == PlayGameItem then PlayGamePointerX else CreditsPointerX;
    var locked := m.spaceLocked && Space in keys;
    var m1 := m.(hovered := hovered, keyPressTimer := timer, pointerX := pointerX, pointerY := PointerY,
                 spaceLocked := locked);
    if !locked && Space in keys then
      MenuStep(m1.(selected := hovered), if hovered == PlayGameItem then GoToLevel else GoToCredits)
    else
      MenuStep(m1, NoChange)
  }

  /** The menu after a sequence of ticks. */
  function Run(m: MenuScreen, ins: seq<Keys>): MenuScreen
    decreases |ins|
  {
    if |ins| == 0 then m else Run(Update(m, ins[0]).menu, ins[1..])
  }

  /** Whether some tick of the sequence selects an item. */
  predicate Selects(m: MenuScreen, ins: seq<Keys>)
    decreases |ins|
  {
    |ins| > 0 && (Update(m, ins[0]).request != NoChange || Selects(Update(m, ins[0]).menu, ins[1..]))
  }

  /** SPACE held down from the moment the menu was initialised never
      selects anything, however long it is held. */
  lemma {:induction false} HeldSpaceNeverSelects(m: MenuScreen, ins: seq<Keys>)
    requires m.spaceLocked
    requires forall i :: 0 <= i < |ins| ==> Space in ins[i]
    ensures !Selects(m, ins)
    ensures Run(m, ins).spaceLocked
    decreases |ins|
  {
    if |ins| > 0 {
      assert forall i :: 0 <= i < |ins[1..]| ==> ins[1..][i] == ins[i + 1];
      HeldSpaceNeverSelects(Update(m, ins[0]).menu, ins[1..]);
    }
  }

  /** While the repeat delay runs, no key moves the hover, and the delay
      counts down by one per tick. */
  lemma {:induction false} DelayHoldsHover(m: MenuScreen, ins: seq<Keys>)
    requires Valid(m) && |ins| <= m.keyPressTimer
    ensures Valid(Run(m, ins))
    ensures Run(m, ins).hovered == m.hovered
    ensures Run(m, ins).keyPressTimer == m.keyPressTimer - |ins|
    decreases |ins|
  {
    if |ins| > 0 {
      DelayHoldsHover(Update(m, ins[0]).menu, ins[1..]);
    }
  }

  /** Holding RIGHT from a settled menu moves the hover on the first tick,
      leaves it alone for the next 14, and moves it again on the 16th. */
  lemma HeldRightRepeatsEveryFifteenTicks(m: MenuScreen, ins: seq<Keys>)
    requires Valid(m) && m.keyPressTimer == 0
    requires |ins| == KeyPressDelay + 2
    requires forall i :: 0 <= i < |ins| ==> ArrowRight in ins[i]
    ensures forall k :: 1 <= k <= KeyPressDelay + 1 ==> Run(m, ins[..k]).hovered != m.hovered
    ensures Run(m, ins).hovered == m.hovered
  {
    var m1 := Update(m, ins[0]).menu;
    assert m1.keyPressTimer == KeyPressDelay && m1.hovered != m.hovered;
    forall k | 1 <= k <= KeyPressDelay + 1
      ensures Run(m, ins[..k]) == Run(m1, ins[1..k])
      ensures Run(m1, ins[1..k]).hovered == m1.hovered
    {
      assert ins[..k][1..] == ins[1..k];
      DelayHoldsHover(m1, ins[1..k]);
    }
    var last := Run(m, ins[..KeyPressDelay + 1]);
    assert last.keyPressTimer == 0 by {
      DelayHoldsHover(m1, ins[1..KeyPressDelay + 1]);
    }
    RunSnoc(m, ins[..KeyPressDelay + 1], ins[KeyPressDelay + 1]);
    assert ins[..KeyPressDelay + 1] + [ins[KeyPressDelay + 1]] == ins;
  }

  lemma {:induction false} RunSnoc(m: MenuScreen, ins: seq<Keys>, x: Keys)
    ensures Run(m, ins + [x]) == Update(Run(m, ins), x).menu
    decreases |ins|
  {
    if |ins| == 0 {
      assert ins + [x] == [x];
    } else {
      assert (ins + [x])[1..] == ins[1..] + [x];
      RunSnoc(Update(m, ins[0]).menu, ins[1..], x);
    }
  }
}

=== FILE: player.dfy ===
/** The player's per-tick movement state machine: gravity, the
    STANDING/WALKING/CROUCHING/JUMPING handlers re-run until the state is
    stable, jump-force decay, momentum capped at terminal velocity, the
    edge-triggered jump key and the vertical collision callback. */
module PlayerFsm {
  import opened Common

  datatype PlayerState = Standing | Walking | Crouching | Jumping

  /** Whether the level is being played; any other value skips movement. */
  datatype LevelState = Running | LevelCompleted | PlayerDead

  const JumpKey: Key := ArrowUp
  const MoveLeftKey: Key := ArrowLeft
  const MoveRightKey: Key := ArrowRight
  const CrouchKey: Key := ArrowDown

  /** The most handler calls one tick's stabilisation loop can make. */
  const MaxHandlerCalls: nat := 8

  /** Movement constants a concrete player configures (speeds in pixels per tick). */
  datatype Physics = Physics(
    walkSpeed: real,
    gravity: real,
    jumpHeight: real,
    jumpDegrade: real,
    terminalVelocityY: real,
    momentumYIncrease: real)

  datatype Player = Player(
    state: PlayerState,
    previousState: PlayerState,
    facing: Direction,
    airGround: AirGround,
    previousAirGround: AirGround,
    jumpForce: real,
    momentumY: real,
    moveAmountX: real,
    moveAmountY: real,
    jumpLocked: bool,            // the key locker's entry for the jump key
    levelState: LevelState,
    animation: string)

  /** What one tick reads: the key snapshot, the outcome of the vertical
      collision check that follows the movement pass, whether the camera
      still draws the player, and whether the current animation shows its
      last frame (the last two matter only once the level is no longer
      running). */
  datatype PlayerInput = PlayerInput(keys: Keys, yHit: Collision, onCamera: bool, lastFrame: bool)

  /** Whom the player tells, on this tick, that the level has ended. */
  datatype Notice = Quiet | LevelCompletedNotice | DeathNotice

  /** A freshly constructed player: facing right, airborne, standing, running. */
  function NewPlayer(startingAnimation: string): (p: Player)
    ensures Consistent(p) && p.jumpForce == 0.0 && p.momentumY == 0.0
    ensures p.levelState == Running && !p.jumpLocked
    ensures p.state == Standing && p.previousState == Standing
    ensures p.facing == Right && p.airGround == Air && p.previousAirGround == Air
  {
    Player(Standing, Standing, Right, Air, Air, 0.0, 0.0, 0.0, 0.0, false, Running, startingAnimation)
  }

  /** A player in JUMPING is in the air or was in the air when the last
      movement pass ended. */
  predicate JumpSettled(p: Player) {
    p.state == Jumping ==> p.airGround == Air || p.previousAirGround == Air
  }

  /** A state the tick loop of a running level can be left in. Outside a
      running level the loop does not run, so nothing is required. */
  predicate Consistent(p: Player) {
    p.levelState == Running ==> JumpSettled(p)
  }

  function FacingName(facing: Direction, right: string, left: string): string {
    if facing == Right then right else left
  }

  /** The jump key is down and not locked by an earlier press. */
  predicate JumpAvailable(p: Player, keys: Keys) {
    JumpKey in keys && !p.jumpLocked
  }

  /** `applyGravity`: gravity and the falling momentum are added to the
      vertical delta and nothing else changes. */
  function ApplyGravity(c: Physics, p: Player): (r: Player)
    ensures r.moveAmountY - p.moveAmountY == c.gravity + p.momentumY
    ensures r == p.(moveAmountY := r.moveAmountY)
  {
    p.(moveAmountY := p.moveAmountY + c.gravity + p.momentumY)
  }

  /** Momentum grows by its increment but never beyond terminal velocity. */
  function IncreaseMomentum(c: Physics, p: Player): (r: Player)
    ensures r.momentumY <= c.terminalVelocityY
    ensures r.momentumY <= p.momentumY + c.momentumYIncrease
    ensures r.momentumY == p.momentumY + c.momentumYIncrease || r.momentumY == c.terminalVelocityY
    ensures r == p.(momentumY := r.momentumY)
  {
    var m := p.momentumY + c.momentumYIncrease;
    p.(momentumY := if m > c.terminalVelocityY then c.terminalVelocityY else m)
  }

  /** A positive jump force lifts the player by its amount, then decays by
      `jumpDegrade`, floored at zero. */
  function DecayJumpForce(c: Physics, p: Player): (r: Player)
    ensures p.jumpForce > 0.0 ==> r.moveAmountY == p.moveAmountY - p.jumpForce && r.jumpForce >= 0.0
    ensures p.jumpForce <= 0.0 ==> r == p
    ensures c.jumpDegrade >= 0.0 && p.jumpForce >= 0.0 ==>
              r.jumpForce <= p.jumpForce && (r.jumpForce == 0.0 <==> p.jumpForce <= c.jumpDegrade)
    ensures r == p.(moveAmountY := r.moveAmountY, jumpForce := r.jumpForce)
  {
    if p.jumpForce > 0.0 then
      var f := p.jumpForce - c.jumpDegrade;
      p.(moveAmountY := p.moveAmountY - p.jumpForce, jumpForce := if f < 0.0 then 0.0 else f)
    else
      p
  }

  function StandingStep(p: Player, keys: Keys): (r: Player)
    requires p.state == Standing
    ensures r.state == Walking <==> MoveLeftKey in keys || MoveRightKey in keys
    ensures r.state == Jumping <==> MoveLeftKey !in keys && MoveRightKey !in keys && JumpAvailable(p, keys)
    ensures r.state == Crouching <==>
              MoveLeftKey !in keys && MoveRightKey !in keys && !JumpAvailable(p, keys) && CrouchKey in keys
    ensures r.jumpLocked <==> p.jumpLocked || r.state == Jumping
    ensures r.animation == FacingName(p.facing, "STAND_RIGHT", "STAND_LEFT")
    ensures r == p.(state := r.state, jumpLocked := r.jumpLocked, animation := r.animation)
  {
    var p := p.(animation := FacingName(p.facing, "STAND_RIGHT", "STAND_LEFT"));
    if MoveLeftKey in keys || MoveRightKey in keys then p.(state := Walking)
    else if JumpAvailable(p, keys) then p.(state := Jumping, jumpLocked := true)
    else if CrouchKey in keys then p.(state := Crouching)
    else p
  }

  /** Walking: LEFT wins over RIGHT; with both up the player stands; an
      available jump, else a held crouch key, overrides the outcome. */
  function WalkingStep(c: Physics, p: Player, keys: Keys): (r: Player)
    requires p.state == Walking
    ensures MoveLeftKey in keys ==> r.moveAmountX == p.moveAmountX - c.walkSpeed && r.facing == Left
    ensures MoveLeftKey !in keys && MoveRightKey in keys ==>
              r.moveAmountX == p.moveAmountX + c.walkSpeed && r.facing == Right
    ensures MoveLeftKey !in keys && MoveRightKey !in keys ==>
              r.moveAmountX == p.moveAmountX && r.facing == p.facing && r.state != Walking
    ensures r.state == Jumping <==> JumpAvailable(p, keys)
    ensures r.state == Crouching <==> !JumpAvailable(p, keys) && CrouchKey in keys
    ensures r.state == Walking <==>
              (MoveLeftKey in keys || MoveRightKey in keys) && !JumpAvailable(p, keys) && CrouchKey !in keys
    ensures r.jumpLocked <==> p.jumpLocked || r.state == Jumping
    ensures r.animation == FacingName(p.facing, "WALK_RIGHT", "WALK_LEFT")
    ensures r == p.(state := r.state, jumpLocked := r.jumpLocked, animation := r.animation,
                    moveAmountX := r.moveAmountX, facing := r.facing)
  {
    var p1 := p.(animation := FacingName(p.facing, "WALK_RIGHT", "WALK_LEFT"));
    var p2 :=
      if MoveLeftKey in keys then p1.(moveAmountX := p1.moveAmountX - c.walkSpeed, facing := Left)
      else if MoveRightKey in keys then p1.(moveAmountX := p1.moveAmountX + c.walkSpeed, facing := Right)
      else p1.(state := Standing);  // both direction keys are up
    if JumpAvailable(p2, keys) then p2.(state := Jumping, jumpLocked := true)
    else if CrouchKey in keys then p2.(state := Crouching)
    else p2
  }

  function CrouchingStep(p: Player, keys: Keys): (r: Player)
    requires p.state == Crouching
    ensures r.state == Jumping <==> JumpAvailable(p, keys)
    ensures r.state == Standing <==> !JumpAvailable(p, keys) && CrouchKey !in keys
    ensures r.state == Crouching <==> !JumpAvailable(p, keys) && CrouchKey in keys
    ensures r.jumpLocked <==> p.jumpLocked || r.state == Jumping
    ensures r.animation == FacingName(p.facing, "CROUCH_RIGHT", "CROUCH_LEFT")
    ensures r == p.(state := r.state, jumpLocked := r.jumpLocked, animation := r.animation)
  {
    var p1 := p.(animation := FacingName(p.facing, "CROUCH_RIGHT", "CROUCH_LEFT"));
    var p2 := if CrouchKey !in keys then p1.(state := Standing) else p1;
    if JumpAvailable(p2, keys) then p2.(state := Jumping, jumpLocked := true) else p2
  }

  /** Jumping has three phases: on the ground with the previous pass also on
      the ground, the jump starts; in the air, the jump force lifts and decays,
      the player steers, and momentum grows while descending; back on the
      ground after being in the air, the player stands. */
  function JumpingStep(c: Physics, p: Player, keys: Keys): (r: Player)
    requires p.state == Jumping
    ensures p.previousAirGround == Ground && p.airGround == Ground ==>
              r.state == Jumping && r.airGround == Air &&
              r == DecayJumpForce(c, p.(animation := r.animation, airGround := Air, jumpForce := c.jumpHeight)) &&
              r.animation == FacingName(p.facing, "JUMP_RIGHT", "JUMP_LEFT")
    ensures p.airGround == Air ==> r.state == Jumping && r.airGround == Air
    ensures p.airGround == Air ==>
              && r.jumpForce == DecayJumpForce(c, p).jumpForce
              && r.moveAmountY == DecayJumpForce(c, p).moveAmountY
              && r.facing == p.facing
              && r == p.(moveAmountX := r.moveAmountX, moveAmountY := r.moveAmountY,
                         jumpForce := r.jumpForce, momentumY := r.momentumY)
    ensures p.airGround == Air && MoveLeftKey in keys ==> r.moveAmountX == p.moveAmountX - c.walkSpeed
    ensures p.airGround == Air && MoveLeftKey !in keys && MoveRightKey in keys ==>
              r.moveAmountX == p.moveAmountX + c.walkSpeed
    ensures p.airGround == Air && MoveLeftKey !in keys && MoveRightKey !in keys ==> r.moveAmountX == p.moveAmountX
    ensures p.airGround == Air && DecayJumpForce(c, p).moveAmountY > 0.0 ==>
              && r.momentumY <= c.terminalVelocityY
              && (r.momentumY == p.momentumY + c.momentumYIncrease || r.momentumY == c.terminalVelocityY)
              && r.momentumY == IncreaseMomentum(c, p).momentumY
    ensures p.airGround == Air && DecayJumpForce(c, p).moveAmountY <= 0.0 ==> r.momentumY == p.momentumY
    ensures r.momentumY != p.momentumY ==> p.airGround == Air && r.moveAmountY > 0.0
    ensures p.previousAirGround == Air && p.airGround == Ground ==> r == p.(state := Standing)
  {
    if p.previousAirGround == Ground && p.airGround == Ground then
      DecayJumpForce(c, p.(animation := FacingName(p.facing, "JUMP_RIGHT", "JUMP_LEFT"),
                           airGround := Air, jumpForce := c.jumpHeight))
    else if p.airGround == Air then
      var p1 := DecayJumpForce(c, p);
      var p2 :=
        if MoveLeftKey in keys then p1.(moveAmountX := p1.moveAmountX - c.walkSpeed)
        else if MoveRightKey in keys then p1.(moveAmountX := p1.moveAmountX + c.walkSpeed)
        else p1;
      if p2.moveAmountY > 0.0 then IncreaseMomentum(c, p2) else p2
    else
      // in the air on the previous pass, on the ground now: the jump has landed
      p.(state := Standing)
  }

  /** `n` airborne passes of the JUMPING handler with the same keys. */
  function AirPasses(c: Physics, p: Player, keys: Keys, n: nat): (r: Player)
    requires p.state == Jumping && p.airGround == Air
    ensures r.state == Jumping && r.airGround == Air
    decreases n
  {
    if n == 0 then p else AirPasses(c, JumpingStep(c, p, keys), keys, n - 1)
  }

  /** A force after `n` decays by `d`, each floored at zero. */
  function Decayed(f: real, d: real, n: nat): real
    decreases n
  {
    if n == 0 then f else Decayed(if f > d then f - d else 0.0, d, n - 1)
  }

  /** The closed form of `Decayed`: `n` decays lower, or zero once `n`
      decays cover the force. */
  lemma {:induction false} DecayedClosedForm(f: real, d: real, n: nat)
    requires d > 0.0 && f >= 0.0
    ensures f > n as real * d ==> Decayed(f, d, n) == f - n as real * d
    ensures f <= n as real * d ==> Decayed(f, d, n) == 0.0
    decreases n
  {
    if n > 0 {
      var f1 := if f > d then f - d else 0.0;
      DecayArithmetic(f, d, n);
      DecayedClosedForm(f1, d, n - 1);
    }
  }

  /** One decay, floored at zero, takes a force that `n` decays do not cover
      to one that `n - 1` decays do not cover, with the same remainder. */
  lemma DecayArithmetic(f: real, d: real, n: nat)
    requires d > 0.0 && f >= 0.0 && n > 0
    ensures var f1 := if f > d then f - d else 0.0;
      && (f > n as real * d ==> f1 > (n - 1) as real * d && f1 - (n - 1) as real * d == f - n as real * d)
      && (f <= n as real * d ==> f1 <= (n - 1) as real * d)
  {
    var rest := (n - 1) as real * d;
    assert n as real * d == rest + d by {
      assert n as real == (n - 1) as real + 1.0;
    }
    assert rest >= 0.0 by {
      assert (n - 1) as real >= 0.0;
    }
  }

  /** In the air the jump force drops by `jumpDegrade` on every pass until it
      is spent: after `n` passes it is `n` decays lower, or zero once `n`
      decays cover it, so a jump of force `f` lifts for at most
      ceil(f / jumpDegrade) passes. */
  lemma AirborneJumpForceRunsOut(c: Physics, p: Player, keys: Keys, n: nat)
    requires p.state == Jumping && p.airGround == Air
    requires c.jumpDegrade > 0.0 && p.jumpForce >= 0.0
    ensures p.jumpForce > n as real * c.jumpDegrade ==>
              AirPasses(c, p, keys, n).jumpForce == p.jumpForce - n as real * c.jumpDegrade
    ensures p.jumpForce <= n as real * c.jumpDegrade ==> AirPasses(c, p, keys, n).jumpForce == 0.0
  {
    AirPassesDecay(c, p, keys, n);
    DecayedClosedForm(p.jumpForce, c.jumpDegrade, n);
  }

  lemma {:induction false} AirPassesDecay(c: Physics, p: Player, keys: Keys, n: nat)
    requires p.state == Jumping && p.airGround == Air
    requires c.jumpDegrade > 0.0 && p.jumpForce >= 0.0
    ensures AirPasses(c, p, keys, n).jumpForce == Decayed(p.jumpForce, c.jumpDegrade, n)
    decreases n
  {
    if n > 0 {
      var q := JumpingStep(c, p, keys);
      assert q.jumpForce == if p.jumpForce > c.jumpDegrade then p.jumpForce - c.jumpDegrade else 0.0;
      AirPassesDecay(c, q, keys, n - 1);
    }
  }

  /** Orders the states for a fixed key snapshot so that every state change a
      handler can make without using the jump key goes down. */
  function Rank(s: PlayerState, keys: Keys): nat {
    var sideways := MoveLeftKey in keys || MoveRightKey in keys;
    var crouch := CrouchKey in keys;
    match s
    case Jumping => 3
    case Standing => if sideways && crouch then 2 else if sideways || crouch then 1 else 0
    case Walking => if sideways && !crouch then 0 else 1
    case Crouching => if crouch then 0 else if sideways then 2 else 1
  }

  /** Termination measure of the stabilisation loop: an available jump can be
      taken once (it locks the key), and otherwise the rank decreases. */
  function Measure(p: Player, keys: Keys): (m: nat)
    ensures m <= MaxHandlerCalls - 1
  {
    (if JumpAvailable(p, keys) then 4 else 0) + Rank(p.state, keys)
  }

  /** One call of `handlePlayerState`. */
  function HandleState(c: Physics, p: Player, keys: Keys): (r: Player)
    ensures r.levelState == p.levelState && r.previousState == p.previousState
    ensures r.previousAirGround == p.previousAirGround
    ensures r.state != p.state ==> Measure(r, keys) < Measure(p, keys)
    ensures r.jumpLocked != p.jumpLocked ==> JumpAvailable(p, keys) && r.jumpLocked && r.state == Jumping
    ensures p.state != Jumping && r.state == Jumping ==> JumpAvailable(p, keys) && r.jumpLocked
    ensures p.state == Jumping && r.state == Jumping ==> r.airGround == Air
    ensures r.airGround != p.airGround ==>
              p.state == Jumping && r.state == Jumping &&
              p.previousAirGround == Ground && p.airGround == Ground && r.airGround == Air
    ensures r.moveAmountY != p.moveAmountY || r.momentumY != p.momentumY ==>
              p.state == Jumping && r.state == Jumping && r.airGround == Air
    ensures r.moveAmountY <= p.moveAmountY
    ensures c.jumpHeight >= 0.0 && p.jumpForce >= 0.0 ==> r.jumpForce >= 0.0
    ensures r.momentumY == p.momentumY || r.momentumY <= c.terminalVelocityY
  {
    match p.state
    case Standing => StandingStep(p, keys)
    case Walking => WalkingStep(c, p, keys)
    case Crouching => CrouchingStep(p, keys)
    case Jumping => JumpingStep(c, p, keys)
  }

  /** One pass of the stabilisation loop: remember the state, then run its
      handler. */
  function Pass(c: Physics, p: Player, keys: Keys): Player {
    HandleState(c, p.(previousState := p.state), keys)
  }

  /** The stabilisation loop of `update`: run the current state's handler,
      and again, until a pass leaves the state as it found it. */
  function Stabilize(c: Physics, p: Player, keys: Keys): (r: Player)
    decreases Measure(p, keys)
    ensures r.state == r.previousState
    ensures r.levelState == p.levelState && r.previousAirGround == p.previousAirGround
    ensures p.jumpLocked ==> r.jumpLocked
    ensures JumpKey !in keys ==> r.jumpLocked == p.jumpLocked
    ensures p.state != Jumping && r.state == Jumping ==> JumpAvailable(p, keys) && r.jumpLocked
    ensures r.state == Jumping ==> r.airGround == Air
    ensures r.airGround != p.airGround ==>
              p.previousAirGround == Ground && p.airGround == Ground && r.airGround == Air && r.state == Jumping
    ensures p.jumpLocked && JumpSettled(p) ==> r.airGround == p.airGround
    ensures p.jumpLocked && p.state != Jumping ==> r.state != Jumping
    ensures p.state == Jumping && p.airGround == Air ==> r.state == Jumping
    ensures r.state != Jumping ==> r.moveAmountY == p.moveAmountY && r.momentumY == p.momentumY
    ensures r.moveAmountY <= p.moveAmountY
    ensures c.jumpHeight >= 0.0 && p.jumpForce >= 0.0 ==> r.jumpForce >= 0.0
    ensures r.momentumY == p.momentumY || r.momentumY <= c.terminalVelocityY
  {
    var q := Pass(c, p, keys);
    if q.state == p.state then q else Stabilize(c, q, keys)
  }

  /** How many handler calls the stabilisation loop makes: never more than
      `MaxHandlerCalls`, whatever the keys and the starting state. */
  function HandlerCalls(c: Physics, p: Player, keys: Keys): (n: nat)
    decreases Measure(p, keys)
    ensures 1 <= n <= Measure(p, keys) + 1
    ensures n <= MaxHandlerCalls
  {
    var q := Pass(c, p, keys);
    if q.state == p.state then 1 else 1 + HandlerCalls(c, q, keys)
  }

  /** `n` passes of the loop body, whatever they do to the state. */
  function Iterate(c: Physics, p: Player, keys: Keys, n: nat): Player
    decreases n
  {
    if n == 0 then p else Iterate(c, Pass(c, p, keys), keys, n - 1)
  }

  /** The loop makes exactly `HandlerCalls` passes: each pass before the
      last changes the state, the last one does not, and the loop's result
      is what that many passes produce. */
  lemma {:induction false} StabilizeMakesHandlerCalls(c: Physics, p: Player, keys: Keys)
    decreases Measure(p, keys)
    ensures var n := HandlerCalls(c, p, keys);
      && Stabilize(c, p, keys) == Iterate(c, p, keys, n)
      && Pass(c, Iterate(c, p, keys, n - 1), keys).state == Iterate(c, p, keys, n - 1).state
      && forall k :: 0 <= k < n - 1 ==> Pass(c, Iterate(c, p, keys, k), keys).state != Iterate(c, p, keys, k).state
  {
    var q := Pass(c, p, keys);
    if q.state != p.state {
      StabilizeMakesHandlerCalls(c, q, keys);
      var n := HandlerCalls(c, p, keys);
      forall k | 0 <= k < n - 1
        ensures Pass(c, Iterate(c, p, keys, k), keys).state != Iterate(c, p, keys, k).state
      {
        if k > 0 {
          assert Iterate(c, p, keys, k) == Iterate(c, q, keys, k - 1);
        }
      }
      assert Iterate(c, p, keys, n - 1) == Iterate(c, q, keys, n - 2);
    }
  }

  /** The movement pass of a RUNNING tick, before collision resolution:
      deltas reset, gravity applied, states stabilised, and the air/ground
      state remembered for the next tick. Unless the pass ends in JUMPING,
      the vertical delta is exactly gravity plus momentum and momentum is
      unchanged. */
  function Movement(c: Physics, p: Player, keys: Keys): (r: Player)
    ensures r.previousAirGround == r.airGround && r.state == r.previousState
    ensures r.moveAmountY <= c.gravity + p.momentumY
    ensures r.state != Jumping ==> r.moveAmountY == c.gravity + p.momentumY && r.momentumY == p.momentumY
    ensures r.levelState == p.levelState
    ensures JumpSettled(r)
  {
    var s := Stabilize(c, ApplyGravity(c, p.(moveAmountX := 0.0, moveAmountY := 0.0)), keys);
    s.(previousAirGround := s.airGround)
  }

  /** The vertical collision callback: landing zeroes momentum and grounds the
      player, no floor below starts a fall, a ceiling bump zeroes the jump force. */
  function OnEndCollisionCheckY(p: Player, hit: Collision): (r: Player)
    ensures hit.direction == Down && hit.hasCollided ==> r == p.(momentumY := 0.0, airGround := Ground)
    ensures hit.direction == Down && !hit.hasCollided ==> r == p.(state := Jumping, airGround := Air)
    ensures hit.direction == Up && hit.hasCollided ==> r == p.(jumpForce := 0.0)
    ensures hit.direction != Down && !(hit.direction == Up && hit.hasCollided) ==> r == p
  {
    if hit.direction == Down then
      if hit.hasCollided then p.(momentumY := 0.0, airGround := Ground)
      else p.(state := Jumping, airGround := Air)
    else if hit.direction == Up && hit.hasCollided then
      p.(jumpForce := 0.0)
    else
      p
  }

  /** The jump key is unlocked only on a tick where it is up. */
  function UpdateLockedKeys(p: Player, keys: Keys): (r: Player)
    ensures r.jumpLocked <==> p.jumpLocked && JumpKey in keys
    ensures r == p.(jumpLocked := r.jumpLocked)
  {
    if JumpKey !in keys then p.(jumpLocked := false) else p
  }

  /** The current animation is one of the death animations. */
  predicate Dying(p: Player) {
    |p.animation| >= 5 && p.animation[..5] == "DEATH"
  }

  /** `levelCompleted`, with the deltas already cleared: an airborne player
      falls under gravity and growing momentum and goes through the vertical
      collision callback; a grounded player walks off to the right while the
      camera still draws it (the walk moves the position only). */
  function LevelCompletedStep(c: Physics, p: Player, yHit: Collision, onCamera: bool): (r: Player)
    ensures p.airGround != Ground ==>
              && r.animation == "FALL_RIGHT" && r.moveAmountY == p.moveAmountY + c.gravity + p.momentumY
              && r.facing == p.facing && r.jumpLocked == p.jumpLocked && r.moveAmountX == p.moveAmountX
    ensures p.airGround != Ground && yHit == Collision(true, Down) ==> r.airGround == Ground && r.momentumY == 0.0
    ensures p.airGround != Ground && yHit.direction != Down ==>
              && r.airGround == p.airGround && r.state == p.state
              && r.momentumY <= c.terminalVelocityY
              && (r.momentumY == p.momentumY + c.momentumYIncrease || r.momentumY == c.terminalVelocityY)
              && r.momentumY == IncreaseMomentum(c, p).momentumY
    ensures p.airGround == Ground ==> r == p.(animation := r.animation)
    ensures p.airGround == Ground && onCamera ==> r.animation == "WALK_RIGHT"
    ensures p.airGround == Ground && !onCamera ==> r == p
  {
    if p.airGround != Ground then
      var p1 := IncreaseMomentum(c, ApplyGravity(c, p.(animation := "FALL_RIGHT")));
      OnEndCollisionCheckY(p1, yHit)
    else if onCamera then p.(animation := "WALK_RIGHT")
    else p
  }

  /** `playerDead`, with the deltas already cleared: the first tick starts the
      death animation for the facing direction; once it shows its last frame,
      the body falls under gravity and growing momentum while the camera
      still draws it. No collision callback runs. */
  function PlayerDeadStep(c: Physics, p: Player, lastFrame: bool, onCamera: bool): (r: Player)
    ensures !Dying(p) ==> r == p.(animation := r.animation) && Dying(r)
    ensures !Dying(p) ==> r.animation == if p.facing == Right then "DEATH_RIGHT" else "DEATH_LEFT"
    ensures Dying(p) && lastFrame && onCamera ==>
              && r.moveAmountY == p.moveAmountY + c.gravity + p.momentumY
              && r.momentumY <= c.terminalVelocityY
              && (r.momentumY == p.momentumY + c.momentumYIncrease || r.momentumY == c.terminalVelocityY)
              && r.momentumY == IncreaseMomentum(c, p).momentumY
              && r == p.(moveAmountY := r.moveAmountY, momentumY := r.momentumY)
    ensures Dying(p) && !(lastFrame && onCamera) ==> r == p
  {
    if !Dying(p) then
      var r := p.(animation := FacingName(p.facing, "DEATH_RIGHT", "DEATH_LEFT"));
      assert r.animation[..5] == "DEATH";
      r
    else if lastFrame && onCamera then IncreaseMomentum(c, ApplyGravity(c, p))
    else p
  }

  /** One call of `update`. The move deltas are cleared first. On a RUNNING
      tick: gravity, the stabilised state machine, the vertical collision
      callback and key unlocking. Once the level is completed or the player
      is dead, the matching end-of-level sequence runs instead: the jump key
      lock, the facing and the horizontal delta are left alone. */
  function Update(c: Physics, p: Player, input: PlayerInput): (r: Player)
    ensures r.levelState == p.levelState
    ensures p.levelState != Running ==>
              && r.moveAmountX == 0.0 && r.facing == p.facing && r.jumpLocked == p.jumpLocked
              && r.previousState == p.previousState && r.previousAirGround == p.previousAirGround
    ensures p.levelState == PlayerDead ==>
              && r.state == p.state && r.airGround == p.airGround && r.jumpForce == p.jumpForce
              && (r.moveAmountY == 0.0 || r.moveAmountY == c.gravity + p.momentumY)
    ensures p.levelState == PlayerDead && !Dying(p) ==>
              Dying(r) && r.moveAmountY == 0.0 && r.momentumY == p.momentumY
    ensures p.levelState == LevelCompleted && p.airGround == Ground ==>
              r == p.(moveAmountX := 0.0, moveAmountY := 0.0, animation := r.animation)
    ensures p.levelState == LevelCompleted && p.airGround == Air ==>
              r.moveAmountY == c.gravity + p.momentumY
    ensures p.levelState == Running ==>
              var m := Movement(c, p, input.keys);
              && r.facing == m.facing && r.moveAmountX == m.moveAmountX && r.moveAmountY == m.moveAmountY
              && r.previousState == m.previousState && r.previousAirGround == m.previousAirGround
              && (input.yHit.direction != Down ==> r.state == m.state && r.airGround == m.airGround)
              && (input.yHit.direction != Up ==> r.jumpForce == m.jumpForce)
              && (input.yHit != Collision(true, Down) ==> r.momentumY == m.momentumY)
              && (JumpKey in input.keys ==> r.jumpLocked == m.jumpLocked)
    ensures p.levelState == Running && JumpKey !in input.keys ==> !r.jumpLocked
    ensures p.jumpLocked && JumpKey in input.keys ==> r.jumpLocked
    ensures p.levelState == Running && input.yHit == Collision(true, Down) ==>
              r.airGround == Ground && r.momentumY == 0.0
    ensures Consistent(p) ==> Consistent(r)
    ensures c.jumpHeight >= 0.0 && p.jumpForce >= 0.0 ==> r.jumpForce >= 0.0
    ensures c.terminalVelocityY >= 0.0 && p.momentumY <= c.terminalVelocityY ==>
              r.momentumY <= c.terminalVelocityY
  {
    var p0 := p.(moveAmountX := 0.0, moveAmountY := 0.0);
    match p.levelState
    case Running => UpdateLockedKeys(OnEndCollisionCheckY(Movement(c, p, input.keys), input.yHit), input.keys)
    case LevelCompleted => LevelCompletedStep(c, p0, input.yHit, input.onCamera)
    case PlayerDead => PlayerDeadStep(c, p0, input.lastFrame, input.onCamera)
  }

  /** Whom `update` notifies on this tick: off camera, a grounded player
      of a completed level reports the level completed, and a dead player
      whose death animation has reached its last frame reports its death. */
  function Notify(p: Player, input: PlayerInput): (n: Notice)
    ensures n != Quiet ==> p.levelState != Running && !input.onCamera
    ensures n == LevelCompletedNotice <==> p.levelState == LevelCompleted && p.airGround == Ground && !input.onCamera
    ensures n == DeathNotice <==> p.levelState == PlayerDead && Dying(p) && input.lastFrame && !input.onCamera
  {
    match p.levelState
    case Running => Quiet
    case LevelCompleted => if p.airGround == Ground && !input.onCamera then LevelCompletedNotice else Quiet
    case PlayerDead => if Dying(p) && input.lastFrame && !input.onCamera then DeathNotice else Quiet
  }

  /** Being hurt by an enemy kills the player; anything else is ignored. */
  function Hurt(p: Player, byEnemy: bool): (r: Player)
    ensures byEnemy ==> r.levelState == PlayerDead
    ensures r == p.(levelState := r.levelState)
    ensures !byEnemy ==> r == p
  {
    if byEnemy then p.(levelState := PlayerDead) else p
  }

  /** The player after a sequence of ticks. */
  function Run(c: Physics, p: Player, ins: seq<PlayerInput>): Player
    decreases |ins|
  {
    if |ins| == 0 then p else Run(c, Update(c, p, ins[0]), ins[1..])
  }

  /** A RUNNING tick whose movement pass takes the player from the ground into the air. */
  predicate StartsJump(c: Physics, p: Player, keys: Keys) {
    p.levelState == Running && p.airGround == Ground && Movement(c, p, keys).airGround == Air
  }

  /** Pressing an unlocked jump key while standing, walking or crouching on
      the ground starts a jump in the same tick: the key is locked, the player
      is airborne, and the first decay step of `jumpHeight` has been applied. */
  lemma JumpPressStartsJump(c: Physics, p: Player, keys: Keys)
    requires p.levelState == Running && p.state != Jumping
    requires p.airGround == Ground && p.previousAirGround == Ground
    requires JumpAvailable(p, keys)
    ensures StartsJump(c, p, keys)
    ensures var r := Movement(c, p, keys);
      && r.state == Jumping && r.airGround == Air && r.jumpLocked
      && (c.jumpHeight > 0.0 ==>
            && r.moveAmountY == c.gravity + p.momentumY - c.jumpHeight
            && r.jumpForce == (if c.jumpHeight > c.jumpDegrade then c.jumpHeight - c.jumpDegrade else 0.0))
  {
    var g := ApplyGravity(c, p.(moveAmountX := 0.0, moveAmountY := 0.0));
    var q := HandleState(c, g.(previousState := g.state), keys);
    if q.state == Walking {
      // standing with a direction key held walks first, then jumps
      var q2 := HandleState(c, q.(previousState := q.state), keys);
      assert q2.state == Jumping && q2.airGround == Ground;
      var q3 := HandleState(c, q2.(previousState := q2.state), keys);
      assert q3.state == Jumping;
      assert Stabilize(c, q2, keys) == q3;
      assert Stabilize(c, q, keys) == q3;
    } else {
      assert q.state == Jumping && q.airGround == Ground;
      var q2 := HandleState(c, q.(previousState := q.state), keys);
      assert q2.state == Jumping;
      assert Stabilize(c, q, keys) == q2;
    }
  }

  /** The player after `k` of the ticks in `ins` is the player after the first
      tick followed by `k - 1` of the rest. */
  lemma RunUnfold(c: Physics, p: Player, ins: seq<PlayerInput>, k: nat)
    requires 1 <= k <= |ins|
    ensures Run(c, p, ins[..k]) == Run(c, Update(c, p, ins[0]), ins[1..][..k - 1])
  {
    assert ins[..k][1..] == ins[1..][..k - 1];
  }

  /** Holding the jump key after its press has been consumed never starts a
      second jump, however many ticks it stays down: the key stays locked,
      and no tick takes the player from the ground into the air. */
  lemma {:induction false} HeldJumpKeyNeverRejumps(c: Physics, p: Player, ins: seq<PlayerInput>)
    requires p.jumpLocked && Consistent(p)
    requires forall i :: 0 <= i < |ins| ==> JumpKey in ins[i].keys
    ensures Run(c, p, ins).jumpLocked && Consistent(Run(c, p, ins))
    ensures forall k :: 0 <= k < |ins| ==> !StartsJump(c, Run(c, p, ins[..k]), ins[k].keys)
    decreases |ins|
  {
    if |ins| > 0 {
      if p.levelState == Running {
        var g := ApplyGravity(c, p.(moveAmountX := 0.0, moveAmountY := 0.0));
        assert Stabilize(c, g, ins[0].keys).airGround == p.airGround;
      }
      assert !StartsJump(c, p, ins[0].keys);
      var p1 := Update(c, p, ins[0]);
      HeldJumpKeyNeverRejumps(c, p1, ins[1..]);
      forall k | 0 <= k < |ins|
        ensures !StartsJump(c, Run(c, p, ins[..k]), ins[k].keys)
      {
        if k == 0 {
          assert ins[..0] == [];
        } else {
          RunUnfold(c, p, ins, k);
          assert ins[k] == ins[1..][k - 1];
        }
      }
    }
  }

  /** Landing from a jump: the callback grounds the player with zero
      momentum, and the next movement pass leaves JUMPING and stays on the
      ground, whatever keys are held. */
  lemma LandingEndsJump(c: Physics, p: Player, keys: Keys)
    requires p.levelState == Running && p.state == Jumping && p.airGround == Air
    requires p.previousAirGround == Air
    ensures var l := OnEndCollisionCheckY(p, Collision(true, Down));
      && l.airGround == Ground && l.momentumY == 0.0
      && Movement(c, l, keys).state != Jumping
      && Movement(c, l, keys).airGround == Ground
  {
    var l := OnEndCollisionCheckY(p, Collision(true, Down));
    var g := ApplyGravity(c, l.(moveAmountX := 0.0, moveAmountY := 0.0));
    assert g.previousAirGround == Air;
    var s := Stabilize(c, g, keys);
    assert s.airGround == Ground;
  }

  /** Once the level has stopped running, no run of ticks turns the player,
      steers it or touches the jump key lock, and a dead player keeps its
      movement state, air/ground state and jump force while its body falls. */
  lemma {:induction false} StoppedPlayerStopsSteering(c: Physics, p: Player, ins: seq<PlayerInput>)
    requires p.levelState != Running
    ensures var r := Run(c, p, ins);
      && r.levelState == p.levelState && r.facing == p.facing && r.jumpLocked == p.jumpLocked
      && (|ins| > 0 ==> r.moveAmountX == 0.0)
      && (p.levelState == PlayerDead ==>
            r.state == p.state && r.airGround == p.airGround && r.jumpForce == p.jumpForce)
    decreases |ins|
  {
    if |ins| > 0 {
      StoppedPlayerStopsSteering(c, Update(c, p, ins[0]), ins[1..]);
    }
  }

  /** A player hurt by an enemy is dead for good: its level state, movement
      state, air/ground state, facing, jump force and key lock never change
      again, and it never moves sideways. */
  lemma HurtPlayerStaysDead(c: Physics, p: Player, ins: seq<PlayerInput>)
    requires |ins| > 0
    ensures var r := Run(c, Hurt(p, true), ins);
      && r.levelState == PlayerDead && r.state == p.state && r.airGround == p.airGround
      && r.facing == p.facing && r.jumpForce == p.jumpForce && r.jumpLocked == p.jumpLocked
      && r.moveAmountX == 0.0
  {
    StoppedPlayerStopsSteering(c, Hurt(p, true), ins);
  }

  /** The death is reported only after the death animation has started: the
      tick after a fatal hit starts the animation, does not move the body
      and reports nothing; on a later tick the death is reported exactly
      when the animation shows its last frame and the camera has lost the
      player. */
  lemma HurtPlayerReportsDeathAfterAnimation(c: Physics, p: Player, first: PlayerInput, next: PlayerInput)
    requires !Dying(p)
    ensures var d := Hurt(p, true);
      && Notify(d, first) == Quiet
      && Update(c, d, first).moveAmountY == 0.0
      && (Notify(Update(c, d, first), next) == DeathNotice <==> next.lastFrame && !next.onCamera)
  {
    var d := Hurt(p, true);
    assert Dying(Update(c, d, first));
  }

  /** Over any run, the jump force stays non-negative and the falling
      momentum stays at or below terminal velocity. */
  lemma {:induction false} RunKeepsPhysicsBounds(c: Physics, p: Player, ins: seq<PlayerInput>)
    requires c.jumpHeight >= 0.0 && c.terminalVelocityY >= 0.0
    requires p.jumpForce >= 0.0 && p.momentumY <= c.terminalVelocityY
    ensures Run(c, p, ins).jumpForce >= 0.0
    ensures Run(c, p, ins).momentumY <= c.terminalVelocityY
    decreases |ins|
  {
    if |ins| > 0 {
      RunKeepsPhysicsBounds(c, Update(c, p, ins[0]), ins[1..]);
    }
  }
}

=== FILE: world_three.dfy ===
/** The level screen's weapon controller and screen flow: pickup
    registration with one active overlay, per-weapon ammo with guarded
    decrements, the pistol's one-shot latch, rifle and shotgun cooldowns, the
    60-frame reload that blocks firing, edge-triggered pausing, the
    level-cleared countdown and the switch to the lose screen. */
module WorldThree {
  import opened Common

  datatype Weapon = Pistol | AssaultRifle | Shotgun

  datatype ScreenState = Running | LevelCompleted | LevelLose | Paused

  /** The game state the screen asks the screen coordinator for, if any. */
  datatype Request = Stay | GoToMenu | GameComplete

  const PistolMaxAmmo: int := 12
  const RifleMaxAmmo: int := 30
  const ShotgunMaxAmmo: int := 8
  const ReloadDelay: int := 60
  const FireCooldownDelay: int := 10
  const ShotgunCooldownDelay: int := 60
  const LevelClearedTime: int := 130

  const FireKey: Key := Space
  const ReloadKey: Key := KeyR
  const PauseKey: Key := KeyP

  /** The weapon state. The ammo counts and the reloading flag are static in
      the source and so outlive a screen; the pickup flags belong to the
      pickup classes, which set them when the player touches a pickup. */
  datatype Arsenal = Arsenal(
    pickupTaken: set<Weapon>,     // the pickups' own "picked up" flags
    pickupOverlay: set<Weapon>,   // the pickups' own "show overlay" flags
    pickedUp: set<Weapon>,        // pickups this screen has registered
    overlay: set<Weapon>,         // weapon overlays on display
    pistolAmmo: int,
    rifleAmmo: int,
    shotgunAmmo: int,
    canShoot: bool,               // the one-shot latch of the fire key
    reloading: bool,
    reloadTimer: int,
    fireCooldownTimer: int,
    shotgunCooldownTimer: int)

  datatype Screen = Screen(
    state: ScreenState,
    gamePaused: bool,
    pauseLocked: bool,            // the key locker's entry for the pause key
    screenTimer: int,
    levelCompletedStateChangeStart: bool,
    arsenal: Arsenal)

  /** The arsenal after a running tick and the weapon that fired, if any. */
  datatype Fired = Fired(arsenal: Arsenal, shot: Option<Weapon>)

  /** What one tick reads: the key snapshot, whether the map reports its
      last wave complete, and the pickups the player touches while the map
      updates on a running tick (their classes set their own flags then). */
  datatype TickInput = TickInput(keys: Keys, waveComplete: bool, taken: set<Weapon>)

  /** The screen after a tick, the weapon that fired (at most one), and the
      game state requested from the coordinator. */
  datatype TickResult = TickResult(screen: Screen, shot: Option<Weapon>, request: Request)

  function MaxAmmo(w: Weapon): int {
    match w
    case Pistol => PistolMaxAmmo
    case AssaultRifle => RifleMaxAmmo
    case Shotgun => ShotgunMaxAmmo
  }

  function Ammo(a: Arsenal, w: Weapon): int {
    match w
    case Pistol => a.pistolAmmo
    case AssaultRifle => a.rifleAmmo
    case Shotgun => a.shotgunAmmo
  }

  function SetAmmo(a: Arsenal, w: Weapon, n: int): (r: Arsenal)
    ensures Ammo(r, w) == n
    ensures forall v :: v != w ==> Ammo(r, v) == Ammo(a, v)
    ensures r == a.(pistolAmmo := r.pistolAmmo, rifleAmmo := r.rifleAmmo, shotgunAmmo := r.shotgunAmmo)
  {
    match w
    case Pistol => a.(pistolAmmo := n)
    case AssaultRifle => a.(rifleAmmo := n)
    case Shotgun => a.(shotgunAmmo := n)
  }

  /** The order in which the screen looks at the weapons: pistol, assault
      rifle, shotgun. */
  function Priority(w: Weapon): nat {
    match w
    case Pistol => 0
    case AssaultRifle => 1
    case Shotgun => 2
  }

  /** The first weapon of `ws` in priority order. */
  function First(ws: set<Weapon>): (o: Option<Weapon>)
    ensures o.None? <==> ws == {}
    ensures o.Some? ==> o.value in ws && forall v :: v in ws ==> Priority(o.value) <= Priority(v)
  {
    if Pistol in ws then Some(Pistol)
    else if AssaultRifle in ws then Some(AssaultRifle)
    else if Shotgun in ws then Some(Shotgun)
    else NoWeaponIsEmpty(ws); None
  }

  lemma NoWeaponIsEmpty(ws: set<Weapon>)
    requires Pistol !in ws && AssaultRifle !in ws && Shotgun !in ws
    ensures ws == {}
  {
    forall v | v in ws ensures false {
      match v
      case Pistol =>
      case AssaultRifle =>
      case Shotgun =>
    }
  }

  lemma DifferenceEmpty(a: set<Weapon>, b: set<Weapon>)
    ensures a - b == {} <==> a <= b
  {
    if a <= b {
      assert forall x :: x !in a - b;
    } else {
      var x :| x in a && x !in b;
      assert x in a - b;
    }
  }

  /** The weapon invariant: every ammo count within [0, max], the reload
      timer running only during a reload and below the delay, at most one
      overlay shown, and only taken pickups registered. */
  predicate Valid(a: Arsenal) {
    && 0 <= a.pistolAmmo <= PistolMaxAmmo
    && 0 <= a.rifleAmmo <= RifleMaxAmmo
    && 0 <= a.shotgunAmmo <= ShotgunMaxAmmo
    && (if a.reloading then 0 <= a.reloadTimer < ReloadDelay else a.reloadTimer == 0)
    && |a.overlay| <= 1
    && a.pickedUp <= a.pickupTaken
  }

  /** `resetWeaponStatus`: forget every pickup, refill every weapon, cancel any reload. */
  function ResetWeaponStatus(a: Arsenal): (r: Arsenal)
    ensures forall w :: Ammo(r, w) == MaxAmmo(w)
    ensures r.pickupTaken == {} && r.pickupOverlay == {} && r.pickedUp == {}
    ensures !r.reloading && r.reloadTimer == 0
    ensures |r.overlay| <= 1 ==> Valid(r)
    ensures r.overlay == a.overlay && r.canShoot == a.canShoot
  {
    a.(pickupOverlay := {}, pickupTaken := {}, pickedUp := {},
       pistolAmmo := PistolMaxAmmo, rifleAmmo := RifleMaxAmmo, shotgunAmmo := ShotgunMaxAmmo,
       reloading := false, reloadTimer := 0)
  }

  /** `resetOverlays`: hide every weapon overlay. */
  function ResetOverlays(a: Arsenal): (r: Arsenal)
    ensures r.overlay == {} && |r.overlay| == 0
    ensures r == a.(overlay := {})
  {
    a.(overlay := {})
  }

  /** `initialize`: reset the weapons and run the level (the map and player
      it builds are outside this model). Pausing state, the pause key lock,
      the fire latch, the cooldowns and the overlays are not reset. */
  function Initialize(s: Screen): (r: Screen)
    ensures r.state == Running
    ensures forall w :: Ammo(r.arsenal, w) == MaxAmmo(w)
    ensures !r.arsenal.reloading && r.arsenal.pickedUp == {} && r.arsenal.pickupTaken == {}
    ensures |s.arsenal.overlay| <= 1 ==> Valid(r.arsenal)
    ensures r.gamePaused == s.gamePaused && r.arsenal.overlay == s.arsenal.overlay
  {
    s.(state := Running, arsenal := ResetWeaponStatus(s.arsenal))
  }

  /** A freshly constructed and initialised screen. */
  function NewScreen(): (s: Screen)
    ensures Valid(s.arsenal) && s.state == Running && !s.gamePaused && s.arsenal.canShoot
  {
    var arsenal := Arsenal({}, {}, {}, {}, PistolMaxAmmo, RifleMaxAmmo, ShotgunMaxAmmo, true, false, 0, 0, 0);
    Initialize(Screen(Running, false, false, 0, false, arsenal))
  }

  /** The taken pickup this tick registers: the first, in priority order,
      that the screen has not registered yet. */
  function NewPickup(a: Arsenal): (o: Option<Weapon>)
    ensures o.None? <==> a.pickupTaken <= a.pickedUp
    ensures o.Some? ==> o.value in a.pickupTaken && o.value !in a.pickedUp
    ensures o.Some? ==> forall v :: v in a.pickupTaken - a.pickedUp ==> Priority(o.value) <= Priority(v)
  {
    DifferenceEmpty(a.pickupTaken, a.pickedUp);
    First(a.pickupTaken - a.pickedUp)
  }

  /** Registers at most one new pickup per tick and shows only its overlay. */
  function RegisterPickup(a: Arsenal): (r: Arsenal)
    ensures NewPickup(a).None? ==> r == a
    ensures NewPickup(a).Some? ==>
              && r.pickedUp == a.pickedUp + {NewPickup(a).value}
              && r.overlay == {NewPickup(a).value}
              && r == a.(pickedUp := r.pickedUp, overlay := r.overlay)
    ensures Valid(a) ==> Valid(r)
  {
    match NewPickup(a)
    case None => a
    case Some(w) =>
      var r := ResetOverlays(a).(pickedUp := a.pickedUp + {w}, overlay := {w});
      assert |r.overlay| == 1;
      r
  }

  /** `startReload`. */
  function StartReload(a: Arsenal): (r: Arsenal)
    ensures r.reloading && r.reloadTimer == 0
    ensures Valid(a) ==> Valid(r)
  {
    a.(reloading := true, reloadTimer := 0)
  }

  /** `finishReload`: end the reload and refill the first weapon, in priority
      order, whose pickup has been taken, whichever weapon was being fired. */
  function FinishReload(a: Arsenal): (r: Arsenal)
    ensures !r.reloading
    ensures forall w :: Ammo(r, w) == if First(a.pickupTaken) == Some(w) then MaxAmmo(w) else Ammo(a, w)
    ensures Pistol in a.pickupTaken ==> r.rifleAmmo == a.rifleAmmo && r.shotgunAmmo == a.shotgunAmmo
    ensures r == a.(pistolAmmo := r.pistolAmmo, rifleAmmo := r.rifleAmmo, shotgunAmmo := r.shotgunAmmo, reloading := false)
  {
    var a1 := a.(reloading := false);
    match First(a.pickupTaken)
    case None => a1
    case Some(w) => SetAmmo(a1, w, MaxAmmo(w))
  }

  /** One reloading tick: count up, and finish at `ReloadDelay`. */
  function AdvanceReload(a: Arsenal): (r: Arsenal)
    ensures a.reloadTimer + 1 < ReloadDelay ==>
              r.reloading == a.reloading && r.reloadTimer == a.reloadTimer + 1
              && forall w :: Ammo(r, w) == Ammo(a, w)
    ensures a.reloadTimer + 1 >= ReloadDelay ==>
              !r.reloading && r.reloadTimer == 0
              && forall w :: Ammo(r, w) == if First(a.pickupTaken) == Some(w) then MaxAmmo(w) else Ammo(a, w)
    ensures r == a.(pistolAmmo := r.pistolAmmo, rifleAmmo := r.rifleAmmo, shotgunAmmo := r.shotgunAmmo,
                    reloading := r.reloading, reloadTimer := r.reloadTimer)
    ensures Valid(a) && a.reloading ==> Valid(r)
  {
    if a.reloadTimer + 1 >= ReloadDelay then FinishReload(a).(reloadTimer := 0)
    else a.(reloadTimer := a.reloadTimer + 1)
  }

  /** Whether `w` may fire now: picked up, loaded, and (rifle and shotgun
      only) cooled down. */
  predicate CanFire(a: Arsenal, w: Weapon) {
    && w in a.pickedUp
    && Ammo(a, w) > 0
    && match w
       case Pistol => true
       case AssaultRifle => a.fireCooldownTimer >= FireCooldownDelay
       case Shotgun => a.shotgunCooldownTimer >= ShotgunCooldownDelay
  }

  /** The weapons that may fire now. */
  function Ready(a: Arsenal): (ws: set<Weapon>)
    ensures forall w :: w in ws <==> CanFire(a, w)
  {
    (if CanFire(a, Pistol) then {Pistol} else {})
    + (if CanFire(a, AssaultRifle) then {AssaultRifle} else {})
    + (if CanFire(a, Shotgun) then {Shotgun} else {})
  }

  function CoolDown(a: Arsenal): Arsenal {
    a.(fireCooldownTimer := a.fireCooldownTimer + 1, shotgunCooldownTimer := a.shotgunCooldownTimer + 1)
  }

  /** The weapon that fires when the trigger is pulled: the first ready one
      in priority order. */
  function ChooseShot(a: Arsenal): (o: Option<Weapon>)
    ensures o == First(Ready(a))
    ensures o.Some? ==> CanFire(a, o.value)
  {
    if CanFire(a, Pistol) then Some(Pistol)
    else if CanFire(a, AssaultRifle) then Some(AssaultRifle)
    else if CanFire(a, Shotgun) then Some(Shotgun)
    else None
  }

  /** One shot of `w`: one round less, and the pistol closes the latch while
      the rifle and the shotgun restart their own cooldown. */
  function Shoot(a: Arsenal, w: Weapon): (r: Arsenal)
    ensures Ammo(r, w) == Ammo(a, w) - 1
    ensures forall v :: v != w ==> Ammo(r, v) == Ammo(a, v)
    ensures r.canShoot == (a.canShoot && w != Pistol)
    ensures r.fireCooldownTimer == if w == AssaultRifle then 0 else a.fireCooldownTimer
    ensures r.shotgunCooldownTimer == if w == Shotgun then 0 else a.shotgunCooldownTimer
    ensures r == a.(pistolAmmo := r.pistolAmmo, rifleAmmo := r.rifleAmmo, shotgunAmmo := r.shotgunAmmo,
                    canShoot := r.canShoot, fireCooldownTimer := r.fireCooldownTimer,
                    shotgunCooldownTimer := r.shotgunCooldownTimer)
    ensures Valid(a) && Ammo(a, w) > 0 ==> Valid(r)
  {
    var a1 := SetAmmo(a, w, Ammo(a, w) - 1);
    match w
    case Pistol => a1.(canShoot := false)
    case AssaultRifle => a1.(fireCooldownTimer := 0)
    case Shotgun => a1.(shotgunCooldownTimer := 0)
  }

  /** The firing half of a running tick (not reloading): the cooldowns
      advance; with the fire key down and the latch armed, the first ready
      weapon in priority order fires one shot; the latch re-arms on a tick
      where the fire key is up. */
  function Fire(a: Arsenal, keys: Keys): (r: Fired)
    ensures r.shot == (if FireKey in keys && a.canShoot then First(Ready(CoolDown(a))) else None)
    ensures r.shot.Some? ==> Ammo(a, r.shot.value) > 0 && Ammo(r.arsenal, r.shot.value) == Ammo(a, r.shot.value) - 1
    ensures forall w :: r.shot != Some(w) ==> Ammo(r.arsenal, w) == Ammo(a, w)
    ensures r.arsenal.fireCooldownTimer == if r.shot == Some(AssaultRifle) then 0 else a.fireCooldownTimer + 1
    ensures r.arsenal.shotgunCooldownTimer == if r.shot == Some(Shotgun) then 0 else a.shotgunCooldownTimer + 1
    ensures r.arsenal.canShoot == (FireKey !in keys || (a.canShoot && r.shot != Some(Pistol)))
    ensures && r.arsenal.pickupTaken == a.pickupTaken && r.arsenal.pickupOverlay == a.pickupOverlay
            && r.arsenal.pickedUp == a.pickedUp && r.arsenal.overlay == a.overlay
            && r.arsenal.reloading == a.reloading && r.arsenal.reloadTimer == a.reloadTimer
  {
    var a1 := CoolDown(a);
    if FireKey !in keys then Fired(a1.(canShoot := true), None)
    else if !a1.canShoot then Fired(a1, None)
    else match ChooseShot(a1)
      case None => Fired(a1, None)
      case Some(w) => Fired(Shoot(a1, w), Some(w))
  }

  /** Firing keeps the arsenal well formed: a weapon fires only when loaded,
      so no count goes negative, and nothing else `Valid` looks at changes. */
  lemma FireKeepsValid(a: Arsenal, keys: Keys)
    ensures Valid(a) ==> Valid(Fire(a, keys).arsenal)
  {
    var a1 := CoolDown(a);
    if Valid(a) && FireKey in keys && a1.canShoot && ChooseShot(a1).Some? {
      var w := ChooseShot(a1).value;
      assert Valid(a1) && Ammo(a1, w) > 0;
      assert Fire(a, keys).arsenal == Shoot(a1, w);
    }
  }

  /** The pickup flags after the map update: the pickups touched on this
      tick are added, and the screen registers none of them yet. */
  function TakePickups(a: Arsenal, taken: set<Weapon>): (r: Arsenal)
    ensures r.pickupTaken == a.pickupTaken + taken
    ensures r == a.(pickupTaken := r.pickupTaken)
    ensures Valid(a) ==> Valid(r)
  {
    a.(pickupTaken := a.pickupTaken + taken)
  }

  /** Pickups taken during the map update cannot fire on the same tick:
      firing looks only at registered weapons. */
  lemma TakenPickupsAreNotReady(a: Arsenal, taken: set<Weapon>)
    ensures Ready(CoolDown(TakePickups(a, taken))) == Ready(CoolDown(a))
  {
    assert forall w :: CanFire(CoolDown(TakePickups(a, taken)), w) == CanFire(CoolDown(a), w);
  }

  /** Firing looks only at the registered pickups, the ammo and the
      cooldowns: two arsenals that agree on those have the same ready weapons. */
  lemma ReadyIgnoresOtherFields(x: Arsenal, y: Arsenal)
    requires x.pickedUp == y.pickedUp
    requires x.pistolAmmo == y.pistolAmmo && x.rifleAmmo == y.rifleAmmo && x.shotgunAmmo == y.shotgunAmmo
    requires x.fireCooldownTimer == y.fireCooldownTimer && x.shotgunCooldownTimer == y.shotgunCooldownTimer
    ensures Ready(CoolDown(x)) == Ready(CoolDown(y))
  {
    assert forall w :: CanFire(CoolDown(x), w) == CanFire(CoolDown(y), w);
  }

  /** The reload key starts a reload unless one is already running. */
  function ReloadOnKey(a: Arsenal, keys: Keys): (r: Arsenal)
    ensures r.reloading <==> a.reloading || ReloadKey in keys
    ensures !a.reloading && ReloadKey in keys ==> r.reloadTimer == 0
    ensures a.reloading || ReloadKey !in keys ==> r == a
    ensures r == a.(reloading := r.reloading, reloadTimer := r.reloadTimer)
    ensures Valid(a) ==> Valid(r)
  {
    if ReloadKey in keys && !a.reloading then StartReload(a) else a
  }

  /** The first half of a running tick's weapon handling: register a pickup,
      start a reload on the reload key, and take the pickups the map update
      hands over. Ammo, cooldowns and the fire latch are left alone. */
  function Prepare(a: Arsenal, keys: Keys, taken: set<Weapon>): (r: Arsenal)
    ensures r.reloading <==> a.reloading || ReloadKey in keys
    ensures !a.reloading && ReloadKey in keys ==> r.reloadTimer == 0
    ensures a.reloading ==> r.reloadTimer == a.reloadTimer
    ensures r.pickupTaken == a.pickupTaken + taken
    ensures r.pickedUp == RegisterPickup(a).pickedUp
    ensures Ready(CoolDown(r)) == Ready(CoolDown(RegisterPickup(a)))
    ensures r.pistolAmmo == a.pistolAmmo && r.rifleAmmo == a.rifleAmmo && r.shotgunAmmo == a.shotgunAmmo
    ensures && r.fireCooldownTimer == a.fireCooldownTimer && r.shotgunCooldownTimer == a.shotgunCooldownTimer
            && r.canShoot == a.canShoot
    ensures Valid(a) ==> Valid(r)
  {
    var a1 := RegisterPickup(a);
    var a2 := ReloadOnKey(a1, keys);
    var r := TakePickups(a2, taken);
    ReadyIgnoresOtherFields(r, a1);
    r
  }

  /** The weapon part of the RUNNING branch of `update`: register a pickup,
      start a reload on the reload key, take the pickups the map update
      hands over, then either advance the reload or handle firing. A reload
      in progress or starting fires nothing and freezes the cooldowns and
      the fire latch; a finishing reload sees the pickups of this tick. */
  function WeaponTick(a: Arsenal, keys: Keys, taken: set<Weapon>): (r: Fired)
    ensures a.reloading || ReloadKey in keys ==>
              && r.shot == None
              && r.arsenal.fireCooldownTimer == a.fireCooldownTimer
              && r.arsenal.shotgunCooldownTimer == a.shotgunCooldownTimer
              && r.arsenal.canShoot == a.canShoot
    ensures r.shot.Some? ==> FireKey in keys && a.canShoot
    ensures FireKey in keys ==> (r.arsenal.canShoot <==> a.canShoot && r.shot != Some(Pistol))
    ensures !a.reloading && ReloadKey !in keys ==>
              r.shot == (if FireKey in keys && a.canShoot then First(Ready(CoolDown(RegisterPickup(a)))) else None)
    ensures !a.reloading && ReloadKey !in keys ==>
              forall w :: Ammo(r.arsenal, w) == Ammo(a, w) - (if r.shot == Some(w) then 1 else 0)
    ensures r.arsenal.pickupTaken == a.pickupTaken + taken
    ensures r.arsenal.pickedUp == RegisterPickup(a).pickedUp
    ensures Valid(a) ==> Valid(r.arsenal)
  {
    var a1 := Prepare(a, keys, taken);
    if a1.reloading then Fired(AdvanceReload(a1), None)
    else
      FireKeepsValid(a1, keys);
      Fire(a1, keys)
  }

  /** `updatePauseState`: a press of the pause key that is not held over
      from before toggles pausing, in any screen state, and locks the key
      until it is released. */
  function UpdatePauseState(s: Screen, keys: Keys): (r: Screen)
    ensures r.gamePaused != s.gamePaused <==> PauseKey in keys && !s.pauseLocked
    ensures r.pauseLocked <==> PauseKey in keys
    ensures r.gamePaused != s.gamePaused ==> r.state == (if r.gamePaused then Paused else Running)
    ensures r.gamePaused == s.gamePaused ==> r.state == s.state
    ensures r == s.(gamePaused := r.gamePaused, pauseLocked := r.pauseLocked, state := r.state)
  {
    var s1 :=
      if PauseKey in keys && !s.pauseLocked then
        var paused := !s.gamePaused;
        s.(gamePaused := paused, pauseLocked := true, state := if paused then Paused else Running)
      else s;
    if PauseKey !in keys then s1.(pauseLocked := false) else s1
  }

  /** The LEVEL_COMPLETED branch: set the 130-tick countdown on the first
      tick, then count down and ask for the menu when it reaches zero. */
  function LevelCompletedTick(s: Screen): (r: TickResult)
    ensures r.shot == None
    ensures s.levelCompletedStateChangeStart ==> r.screen.screenTimer == LevelClearedTime && r.request == Stay
    ensures !s.levelCompletedStateChangeStart ==>
              r.screen.screenTimer == s.screenTimer - 1 && (r.request == GoToMenu <==> s.screenTimer == 1)
    ensures r.request != GameComplete
    ensures r.screen == s.(screenTimer := r.screen.screenTimer, levelCompletedStateChangeStart := false)
  {
    if s.levelCompletedStateChangeStart then
      TickResult(s.(screenTimer := LevelClearedTime, levelCompletedStateChangeStart := false), None, Stay)
    else
      var t := s.screenTimer - 1;
      TickResult(s.(screenTimer := t), None, if t == 0 then GoToMenu else Stay)
  }

  /** One call of `update`: pause handling, then the branch for the current
      screen state. Shots come only from a running screen with the fire key
      down and the latch armed; the lose screen restores full weapons; a
      paused screen changes nothing but the pause key lock. The player, the
      map and the enemy and bullet loop are outside this model. */
  function Update(s: Screen, input: TickInput): (r: TickResult)
    ensures r.screen.state == UpdatePauseState(s, input.keys).state
    ensures r.screen.gamePaused == UpdatePauseState(s, input.keys).gamePaused
    ensures r.screen.pauseLocked <==> PauseKey in input.keys
    ensures r.shot.Some? ==> r.screen.state == Running && FireKey in input.keys && s.arsenal.canShoot
    ensures r.screen.state == Running && !s.arsenal.reloading && ReloadKey !in input.keys ==>
              r.shot == (if FireKey in input.keys && s.arsenal.canShoot
                         then First(Ready(CoolDown(RegisterPickup(s.arsenal)))) else None)
    ensures FireKey in input.keys ==> (r.screen.arsenal.canShoot <==> s.arsenal.canShoot && r.shot != Some(Pistol))
    ensures r.request == GameComplete <==> r.screen.state == Running && input.waveComplete
    ensures r.request == GoToMenu ==> r.screen.state == LevelCompleted
    ensures Valid(s.arsenal) ==> Valid(r.screen.arsenal)
    ensures r.screen.state == Running ==> r.screen.arsenal.pickupTaken == s.arsenal.pickupTaken + input.taken
    ensures r.screen.state != Running && r.screen.state != LevelLose ==>
              r.screen.arsenal.pickupTaken == s.arsenal.pickupTaken
    ensures r.screen.state == Paused ==> r == TickResult(UpdatePauseState(s, input.keys), None, Stay)
    ensures r.screen.state == LevelLose ==>
              && Valid(r.screen.arsenal) && r.screen.arsenal.overlay == {}
              && forall w :: Ammo(r.screen.arsenal, w) == MaxAmmo(w)
  {
    var s1 := UpdatePauseState(s, input.keys);
    match s1.state
    case Running =>
      var f := WeaponTick(s1.arsenal, input.keys, input.taken);
      TickResult(s1.(arsenal := f.arsenal), f.shot, if input.waveComplete then GameComplete else Stay)
    case LevelCompleted => LevelCompletedTick(s1)
    case LevelLose => TickResult(s1.(arsenal := ResetOverlays(ResetWeaponStatus(s1.arsenal))), None, Stay)
    case Paused => TickResult(s1, None, Stay)
  }

  /** `onDeath`: switch to the lose screen; a second call changes nothing. */
  function OnDeath(s: Screen): (r: Screen)
    ensures r.state == LevelLose
    ensures r == s.(state := LevelLose)
  {
    if s.state != LevelLose then s.(state := LevelLose) else s
  }

  /** The screen after a sequence of ticks. */
  function Run(s: Screen, ins: seq<TickInput>): Screen
    decreases |ins|
  {
    if |ins| == 0 then s else Run(Update(s, ins[0]).screen, ins[1..])
  }

  /** How many shots of weapon `w` a sequence of ticks fires. */
  function ShotsFired(s: Screen, ins: seq<TickInput>, w: Weapon): nat
    decreases |ins|
  {
    if |ins| == 0 then 0
    else (if Update(s, ins[0]).shot == Some(w) then 1 else 0) + ShotsFired(Update(s, ins[0]).screen, ins[1..], w)
  }

  /** Every pickup touched during a sequence of ticks. */
  function TakenIn(ins: seq<TickInput>): set<Weapon>
    decreases |ins|
  {
    if |ins| == 0 then {} else ins[0].taken + TakenIn(ins[1..])
  }

  predicate NoPause(ins: seq<TickInput>) {
    forall i :: 0 <= i < |ins| ==> PauseKey !in ins[i].keys
  }

  lemma NoPauseSlice(ins: seq<TickInput>, j: nat, k: nat)
    requires NoPause(ins) && j <= k <= |ins|
    ensures NoPause(ins[j..k])
  {
    forall i | 0 <= i < k - j ensures PauseKey !in ins[j..k][i].keys {
      assert ins[j..k][i] == ins[i + j];
    }
  }

  /** The invariant holds after any sequence of ticks from a valid screen. */
  lemma {:induction false} RunPreservesValid(s: Screen, ins: seq<TickInput>)
    requires Valid(s.arsenal)
    ensures Valid(Run(s, ins).arsenal)
    decreases |ins|
  {
    if |ins| > 0 {
      RunPreservesValid(Update(s, ins[0]).screen, ins[1..]);
    }
  }

  /** One tick of a running reload with the pause key up. */
  lemma ReloadTick(s: Screen, input: TickInput)
    requires s.state == Running && s.arsenal.reloading && 0 <= s.arsenal.reloadTimer < ReloadDelay
    requires PauseKey !in input.keys
    ensures var r := Update(s, input);
      && r.shot == None && r.screen.state == Running
      && r.screen.arsenal.pickupTaken == s.arsenal.pickupTaken + input.taken
      && (s.arsenal.reloadTimer + 1 < ReloadDelay ==>
            && r.screen.arsenal.reloading && r.screen.arsenal.reloadTimer == s.arsenal.reloadTimer + 1
            && forall w :: Ammo(r.screen.arsenal, w) == Ammo(s.arsenal, w))
      && (s.arsenal.reloadTimer + 1 == ReloadDelay ==>
            && !r.screen.arsenal.reloading
            && forall w :: Ammo(r.screen.arsenal, w) ==
                 if First(s.arsenal.pickupTaken + input.taken) == Some(w) then MaxAmmo(w) else Ammo(s.arsenal, w))
  {
    var a1 := RegisterPickup(s.arsenal);
    assert forall w :: Ammo(a1, w) == Ammo(s.arsenal, w);
  }

  /** The tick of a reload key press while running and not reloading. */
  lemma ReloadPress(s: Screen, input: TickInput)
    requires s.state == Running && !s.arsenal.reloading
    requires ReloadKey in input.keys && PauseKey !in input.keys
    ensures var r := Update(s, input);
      && r.shot == None && r.screen.state == Running
      && r.screen.arsenal.reloading && r.screen.arsenal.reloadTimer == 1
      && r.screen.arsenal.pickupTaken == s.arsenal.pickupTaken + input.taken
      && forall w :: Ammo(r.screen.arsenal, w) == Ammo(s.arsenal, w)
  {
    var a1 := RegisterPickup(s.arsenal);
    assert forall w :: Ammo(a1, w) == Ammo(s.arsenal, w);
  }

  /** A reload in progress counts one per tick, fires nothing and touches no
      ammo; on the tick its timer reaches `ReloadDelay` it ends and refills
      the first weapon in priority order whose pickup has been taken by then,
      counting the pickups touched during the reload. */
  lemma {:induction false} ReloadRuns(s: Screen, ins: seq<TickInput>)
    requires s.state == Running && s.arsenal.reloading && 0 <= s.arsenal.reloadTimer < ReloadDelay
    requires 0 < |ins| <= ReloadDelay - s.arsenal.reloadTimer && NoPause(ins)
    ensures forall w :: ShotsFired(s, ins, w) == 0
    ensures Run(s, ins).arsenal.pickupTaken == s.arsenal.pickupTaken + TakenIn(ins)
    ensures |ins| < ReloadDelay - s.arsenal.reloadTimer ==>
              && Run(s, ins).arsenal.reloading
              && forall w :: Ammo(Run(s, ins).arsenal, w) == Ammo(s.arsenal, w)
    ensures |ins| == ReloadDelay - s.arsenal.reloadTimer ==>
              && !Run(s, ins).arsenal.reloading
              && forall w :: Ammo(Run(s, ins).arsenal, w) ==
                   if First(s.arsenal.pickupTaken + TakenIn(ins)) == Some(w) then MaxAmmo(w) else Ammo(s.arsenal, w)
    decreases |ins|
  {
    ReloadTick(s, ins[0]);
    if |ins| > 1 {
      NoPauseSlice(ins, 1, |ins|);
      ReloadRuns(Update(s, ins[0]).screen, ins[1..]);
      assert s.arsenal.pickupTaken + TakenIn(ins) == s.arsenal.pickupTaken + ins[0].taken + TakenIn(ins[1..]);
    } else {
      assert TakenIn(ins) == ins[0].taken + TakenIn(ins[1..]);
      assert ins[1..] == [];
    }
  }

  /** A press of the reload key while running and not reloading starts a
      reload that blocks firing for its whole length and completes on the
      60th tick, counting the tick of the press, refilling the first weapon
      in priority order whose pickup has been taken by then. */
  lemma ReloadTakesSixtyTicks(s: Screen, ins: seq<TickInput>)
    requires s.state == Running && !s.arsenal.reloading
    requires |ins| == ReloadDelay && ReloadKey in ins[0].keys && NoPause(ins)
    ensures forall k :: 1 <= k < ReloadDelay ==> Run(s, ins[..k]).arsenal.reloading
    ensures !Run(s, ins).arsenal.reloading
    ensures forall w :: Ammo(Run(s, ins).arsenal, w) ==
              if First(s.arsenal.pickupTaken + TakenIn(ins)) == Some(w) then MaxAmmo(w) else Ammo(s.arsenal, w)
    ensures forall w :: ShotsFired(s, ins, w) == 0
  {
    var r := Update(s, ins[0]);
    ReloadPress(s, ins[0]);
    NoPauseSlice(ins, 1, |ins|);
    ReloadRuns(r.screen, ins[1..]);
    assert s.arsenal.pickupTaken + TakenIn(ins) == s.arsenal.pickupTaken + ins[0].taken + TakenIn(ins[1..]);
    forall k | 1 <= k < ReloadDelay ensures Run(s, ins[..k]).arsenal.reloading {
      assert ins[..k][1..] == ins[1..k];
      if k > 1 {
        NoPauseSlice(ins, 1, k);
        ReloadRuns(r.screen, ins[1..k]);
      }
    }
  }

  /** A pickup touched during a running tick is not registered on that tick,
      since registration comes before the map update, but on the next one,
      which shows exactly its overlay, provided no other pickup was waiting. */
  lemma PickupRegisteredOnNextTick(s: Screen, first: TickInput, next: TickInput, w: Weapon)
    requires s.state == Running && Valid(s.arsenal)
    requires s.arsenal.pickupTaken <= s.arsenal.pickedUp && w !in s.arsenal.pickupTaken
    requires first.taken == {w} && PauseKey !in first.keys && PauseKey !in next.keys
    ensures var s1 := Update(s, first).screen;
      && s1.state == Running && w in s1.arsenal.pickupTaken && w !in s1.arsenal.pickedUp
      && w in Update(s1, next).screen.arsenal.pickedUp
      && Update(s1, next).screen.arsenal.overlay == {w}
  {
    var s1 := Update(s, first).screen;
    assert NewPickup(s.arsenal).None?;
    assert s1.arsenal.pickedUp == s.arsenal.pickedUp;
    assert s1.arsenal.pickupTaken - s1.arsenal.pickedUp == {w};
    assert NewPickup(s1.arsenal) == Some(w);
  }

  /** With the fire key held down the whole time, the pistol fires at most
      once, and not at all if the latch was already closed. */
  lemma {:induction false} HeldFireKeyFiresPistolOnce(s: Screen, ins: seq<TickInput>)
    requires forall i :: 0 <= i < |ins| ==> FireKey in ins[i].keys
    ensures ShotsFired(s, ins, Pistol) <= if s.arsenal.canShoot then 1 else 0
    decreases |ins|
  {
    if |ins| > 0 {
      assert forall i :: 0 <= i < |ins[1..]| ==> ins[1..][i] == ins[i + 1];
      HeldFireKeyFiresPistolOnce(Update(s, ins[0]).screen, ins[1..]);
    }
  }

  /** A held fire key fires a registered, loaded pistol exactly once when the
      latch is armed and the first tick runs the level without reloading. */
  lemma HeldFireKeyFiresReadyPistolOnce(s: Screen, ins: seq<TickInput>)
    requires |ins| > 0 && forall i :: 0 <= i < |ins| ==> FireKey in ins[i].keys
    requires s.state == Running && PauseKey !in ins[0].keys && ReloadKey !in ins[0].keys
    requires !s.arsenal.reloading && s.arsenal.canShoot
    requires Pistol in s.arsenal.pickedUp && s.arsenal.pistolAmmo > 0
    ensures ShotsFired(s, ins, Pistol) == 1
  {
    var r := Update(s, ins[0]);
    assert CanFire(CoolDown(RegisterPickup(s.arsenal)), Pistol);
    assert r.shot == Some(Pistol);
    assert forall i :: 0 <= i < |ins[1..]| ==> ins[1..][i] == ins[i + 1];
    HeldFireKeyFiresPistolOnce(r.screen, ins[1..]);
  }

  /** Holding the pause key toggles pausing once, on the first tick, and only
      if the key was not already locked. */
  lemma {:induction false} HeldPauseKeyTogglesOnce(s: Screen, ins: seq<TickInput>)
    requires |ins| > 0
    requires forall i :: 0 <= i < |ins| ==> PauseKey in ins[i].keys
    ensures Run(s, ins).gamePaused == if s.pauseLocked then s.gamePaused else !s.gamePaused
    ensures Run(s, ins).pauseLocked
    decreases |ins|
  {
    if |ins| > 1 {
      assert forall i :: 0 <= i < |ins[1..]| ==> ins[1..][i] == ins[i + 1];
      HeldPauseKeyTogglesOnce(Update(s, ins[0]).screen, ins[1..]);
    }
  }

  /** After the level-completed countdown has started, each tick without the
      pause key lowers the screen timer by one and stays in that state. */
  lemma {:induction false} CountdownRuns(s: Screen, ins: seq<TickInput>)
    requires s.state == LevelCompleted && !s.levelCompletedStateChangeStart && NoPause(ins)
    ensures Run(s, ins).state == LevelCompleted && !Run(s, ins).levelCompletedStateChangeStart
    ensures Run(s, ins).screenTimer == s.screenTimer - |ins|
    decreases |ins|
  {
    if |ins| > 0 {
      NoPauseSlice(ins, 1, |ins|);
      CountdownRuns(Update(s, ins[0]).screen, ins[1..]);
    }
  }

  /** On entering the level-completed state the screen asks for the menu on
      its 131st tick (one tick to set the 130-tick timer, then 130 ticks of
      countdown), and not before. */
  lemma LevelClearedReturnsToMenu(s: Screen, ins: seq<TickInput>)
    requires s.state == LevelCompleted && s.levelCompletedStateChangeStart
    requires |ins| == LevelClearedTime + 1 && NoPause(ins)
    ensures forall k :: 0 <= k < LevelClearedTime ==> Update(Run(s, ins[..k]), ins[k]).request == Stay
    ensures Update(Run(s, ins[..LevelClearedTime]), ins[LevelClearedTime]).request == GoToMenu
  {
    var s1 := Update(s, ins[0]).screen;
    assert s1.state == LevelCompleted && s1.screenTimer == LevelClearedTime && !s1.levelCompletedStateChangeStart;
    forall k | 1 <= k <= LevelClearedTime
      ensures Run(s, ins[..k]).state == LevelCompleted
      ensures !Run(s, ins[..k]).levelCompletedStateChangeStart
      ensures Run(s, ins[..k]).screenTimer == LevelClearedTime - (k - 1)
    {
      assert ins[..k][1..] == ins[1..k];
      NoPauseSlice(ins, 1, k);
      CountdownRuns(s1, ins[1..k]);
    }
    assert ins[..0] == [];
  }
}
